=== FILE: README.md ===
# Incremental indexing in ir_programming_task, modelled in Dafny

The program keeps a Lucene index of a document folder up to date across
runs. The model covers four parts:

- **`CheckedList`** is a ledger. It maps each path to a hash of its content and keeps a per-run set of the paths it has seen.
- **`Indexer`** walks the folder and asks the ledger whether each accepted file is new, updated or known. It adds or updates documents in the index, deletes the documents of files that vanished, and tells its listeners what it did.
- **`IndexFileFilter`** accepts a file by the suffix of its lower-cased name.
- **`Information`** turns the command line and the settings documents into the run's configuration.

The modules follow the program's classes:

| module | models |
|---|---|
| `Wrappers` | `Option` and `Result` |
| `Text` | `toLowerCase`, `toUpperCase`, `endsWith`, `split` on one character (which drops trailing empty pieces), `ArrayList.remove(Object)` |
| `Numerals` | `Integer.toString(i, radix)` and `Integer.parseInt` on 32-bit `int`s |
| `FileTree` | the document folder as a tree and the order `indexDir` visits it in |
| `CheckedList` | the ledger, its serialized form and the hash rendering |
| `IndexFileFilter` | `accept` |
| `Indexer` | the lifecycle, listeners, extractor registry and dispatch, `indexFile*`, `indexDir` and `Index` |
| `IndexerRuns` | one process's run as `Main` drives it (load ledger, set up, register, index, close, save) and what consecutive runs do |
| `Information` | `ApplyArgs`, `getText` and `loadSettings` |

Representation:

- **The index.** It is a map from the `path` term to an abstract document. Every mutation sent to the `IndexWriter` is also kept, in order, in `writes`.
- **Listeners.** They are identities. Calling them appends one `Event` per listener, in registration order, to an append-only `log`.
- **Passed in as functions.** The MD5 digest and the extractors (`HTMLIndexer`, `PlainIndexer`).
- **Inputs.** What a directory listing returns, whether a path is a directory, and what a settings file parses to.
- **The `HashMap` key-set order.** It matters when the removed paths are walked, and it is a ghost choice (`Indexer.Enumerate`): any order of the set, each path once.
- **Process exits.** A `System.exit` or a thrown exception that ends the run becomes a `Failure` or `Exit` value naming the cause.

## Model

| member | source | states |
|---|---|---|
| CheckedList.Fresh | src/main/java/Util/CheckedList.java:28-31 | a new ledger knows no path and has an empty seen set |
| CheckedList.Seen | src/main/java/Util/CheckedList.java:60-63 | a path counts as seen iff the seen set exists and holds it; a null set, which `CheckFile` replaces by an empty one, holds nothing |
| CheckedList.Serialize | src/main/java/Util/CheckedList.java:20-26 | what is saved holds every known path with its hash |
| CheckedList.SerializeIgnoresSeen | src/main/java/Util/CheckedList.java:26 | the transient seen set is not part of what is saved |
| CheckedList.Deserialize | src/main/java/Util/CheckedList.java:20-26 | a ledger read back keeps the saved map, and its transient seen set is absent, so nothing counts as seen |
| CheckedList.SerializeRoundTrip | src/main/java/Util/CheckedList.java:20-26 | saving and loading keeps every path and hash and starts the next run with nothing seen |
| CheckedList.ByteHex | src/main/java/Util/CheckedList.java:82-84 | each digest byte renders as 1 to 3 characters, with a leading '-' exactly when the byte is negative as a Java `byte` |
| CheckedList.ByteDigitsAtMostTwo | src/main/java/Util/CheckedList.java:82-84 | the magnitude of a signed byte has at most two hex digits |
| CheckedList.ByteHexParses | src/main/java/Util/CheckedList.java:83 | `Integer.parseInt(_, 16)` reads each byte's rendering back as the signed byte value |
| CheckedList.RenderHash | src/main/java/Util/CheckedList.java:80-84 | the stored hash is not fixed-width: between 1 and 3 characters per digest byte |
| CheckedList.RenderHashNotInjective | src/main/java/Util/CheckedList.java:80-84 | the unpadded rendering maps two different digests to the same string |
| CheckedList.ByteHexUnpadded | src/main/java/Util/CheckedList.java:82-84 | a byte below 0x80 renders as its hex digits with no leading zero: one digit below 16, two from 16 on |
| CheckedList.CheckFile | src/main/java/Util/CheckedList.java:58-103 | the path is marked seen on every call; the result is New iff the path was unknown, Known iff the stored hash is equal (then the map is unchanged), otherwise Update; the map ends with the new hash under the path and every other entry as it was |
| CheckedList.CheckTwiceNewThenKnown | src/main/java/Util/CheckedList.java:92-101 | two calls with the same hash on an unknown path return New and then Known |
| CheckedList.CheckFileIdempotent | src/main/java/Util/CheckedList.java:60-101 | repeating a call with the same hash leaves the ledger as the first call left it and returns Known |
| CheckedList.CheckFileFramesOtherPaths | src/main/java/Util/CheckedList.java:92-101 | no other path's entry or seen status changes |
| CheckedList.GetDifferenceAsWritten | src/main/java/Util/CheckedList.java:40-48 | as written, it fails iff the seen set is null; otherwise it returns exactly the known paths not seen |
| CheckedList.GetDifferenceAsWrittenFailsUnseen | src/main/java/Util/CheckedList.java:26-48 | on a ledger read back from disk that has not classified any file, even one that knows no path, the written version fails, where the intended one returns every known path |
| CheckedList.GetDifference | src/main/java/Util/CheckedList.java:40-48 | a path is returned iff the ledger knows it and it was not seen; the ledger itself is not changed |
| CheckedList.GetDifferenceAgrees | src/main/java/Util/CheckedList.java:40-48 | whenever the written version succeeds, it returns the same set as the intended one |
| CheckedList.Forget | src/main/java/Indexing/Indexer.java:171 | removing a path from the map leaves the seen set and every other entry alone |
| FileTree.DirVisits | src/main/java/Indexing/Indexer.java:197-206 | a directory that cannot be listed yields exactly one failed-listing step |
| FileTree.EntryVisitsAppend | src/main/java/Indexing/Indexer.java:201-206 | the steps for two runs of entries are the steps of the first run followed by those of the second |
| FileTree.EntryVisitsCons | src/main/java/Indexing/Indexer.java:201-206 | the steps for a run of entries are the first entry's steps followed by the rest's |
| FileTree.ChildInOrder | src/main/java/Indexing/Indexer.java:201-206 | a listed directory's walk is, for each entry in listing order, the steps of the entries before it, then the file itself or the whole walk of the sub-directory, then the steps of the entries after it |
| FileTree.FileChildVisited | src/main/java/Indexing/Indexer.java:204-205 | every file entry of a listed directory is a step of its walk |
| FileTree.ListableWalkHasNoUnlisted | src/main/java/Indexing/Indexer.java:197-206 | walking a tree whose directories can all be listed meets no failed listing |
| FileTree.EntriesListableHaveNoUnlisted | src/main/java/Indexing/Indexer.java:201-206 | the same for every suffix of a directory's entries |
| IndexFileFilter.Accept | src/main/java/Indexing/IndexFileFilter.java:22-25 | a name is accepted iff its lower-cased form ends with some type that holds no upper-case letter |
| IndexFileFilter.AcceptNothingWhenEmpty | src/main/java/Indexing/IndexFileFilter.java:24 | with no file types, no name is accepted |
| IndexFileFilter.AcceptMonotone | src/main/java/Indexing/IndexFileFilter.java:24 | more file types accept every name fewer types accept |
| IndexFileFilter.AcceptIgnoresCase | src/main/java/Indexing/IndexFileFilter.java:23 | acceptance depends only on the lower-cased name |
| IndexFileFilter.UpperCaseTypesNeverMatch | src/main/java/Indexing/IndexFileFilter.java:8-24 | a type holding an upper-case letter never matches; dropping such types changes nothing |
| Indexer.Create | src/main/java/Indexing/Indexer.java:36-58 | a new indexer is not set up, its counter is zero, and it has no listeners and no extractors |
| Indexer.SetUp | src/main/java/Indexing/Indexer.java:88-128 | after set-up the indexer may run, with the given ledger, fallback extractor and stored index; nothing else changes: listeners, registry, counter, log and the record of writes are kept |
| Indexer.Close | src/main/java/Indexing/Indexer.java:139-142 | after closing, the indexer is no longer set up and nothing else changes: listeners, extractor registry, fallback extractor, counter, index, ledger and log carry over to the next `SetUp` |
| Text.RemoveFirst | src/main/java/Indexing/Indexer.java:326-328 | `ArrayList.remove` drops exactly one occurrence, the first, of an element that is present, and leaves the list alone otherwise |
| Text.RemoveInserted | src/main/java/Indexing/Indexer.java:304-328 | removing an element inserted anywhere into a list that lacked it restores the list |
| Text.InInserted | src/main/java/Util/Information.java:58-66 | an element is in a list with `x` inserted iff it is `x` or was already there |
| Indexer.AddThenRemoveListener | src/main/java/Indexing/Indexer.java:304-328 | registering a new listener and removing it restores the list |
| Indexer.AddOnIndex | src/main/java/Indexing/Indexer.java:304-306 | the listener goes last on the onIndex list, and nothing else changes |
| Indexer.AddOnFinish | src/main/java/Indexing/Indexer.java:315-317 | the listener goes last on the onFinish list, and nothing else changes |
| Indexer.RemoveOnIndex | src/main/java/Indexing/Indexer.java:326-328 | only the onIndex list changes; a listener that is not registered leaves the indexer as it was; otherwise exactly its first registration goes and the others keep their order |
| Indexer.RemoveOnFinish | src/main/java/Indexing/Indexer.java:337-339 | only the onFinish list changes; a listener that is not registered leaves the indexer as it was; otherwise exactly its first registration goes and the others keep their order |
| Indexer.Notify | src/main/java/Indexing/Indexer.java:347-359 | every listener receives the message once, in registration order |
| Indexer.CallOnIndex | src/main/java/Indexing/Indexer.java:347-349 | only the log changes: one event per onIndex listener, in registration order, carrying the message, is appended |
| Indexer.CallOnFinish | src/main/java/Indexing/Indexer.java:357-359 | only the log changes: one event per onFinish listener, in registration order, carrying the message, is appended |
| Indexer.Lookup | src/main/java/Indexing/Indexer.java:261 | a suffix has an extractor iff some registration carries it, and then it is the extractor of the first registration that does |
| Indexer.Put | src/main/java/Indexing/Indexer.java:369 | after `put` the suffix maps to the new extractor and every other suffix keeps its extractor; the registry grows iff the suffix is new and never holds a suffix twice |
| Indexer.AddFileIndexer | src/main/java/Indexing/Indexer.java:368-370 | the extractor is registered under the lower-cased extension, replacing an earlier one; nothing else in the indexer changes |
| Indexer.Dispatch | src/main/java/Indexing/Indexer.java:258-269 | the extractor is that of the first registration in iteration order whose suffix ends the name, or the fallback when none does |
| Indexer.DispatchOrderIrrelevant | src/main/java/Indexing/Indexer.java:259-265 | when at most one registration matches a name, every order of the same registrations picks the same extractor |
| Indexer.HtmlSuffixesExclusive | src/main/java/Main.java:66-68 | no name ends with both ".htm" and ".html" |
| Indexer.ProgramDispatch | src/main/java/Indexing/Indexer.java:258-269 | with the program's registrations, HTML names in any case go to the HTML extractor in either iteration order, and every other name goes to the fallback |
| Indexer.ApplyWrite | src/main/java/Indexing/Indexer.java:170-287 | a delete removes the documents under its path; an add or update leaves the document under its own path |
| Indexer.Send | src/main/java/Indexing/Indexer.java:170 | the mutation is recorded last and applied: after a delete nothing is under its path, after an add or update its document is under its own path; nothing else changes |
| Indexer.Extract | src/main/java/Indexing/Indexer.java:258-269 | extraction fails iff the extractor chosen for the lower-cased name throws; otherwise the document carries that extractor's fields and is tagged with the file's path and that extractor |
| Indexer.IndexFileAdd | src/main/java/Indexing/Indexer.java:253-270 | "<path> NEW" is announced, the counter grows by one, then exactly one add is sent; the run fails iff extraction fails |
| Indexer.IndexFileUpdate | src/main/java/Indexing/Indexer.java:278-295 | "<path> UPDATE" is announced, the counter grows by one, then exactly one update keyed on the path is sent; the run fails iff extraction fails |
| Indexer.IndexFile | src/main/java/Indexing/Indexer.java:220-244 | an unreadable file ends the run; a Known file changes only the ledger's seen set; New adds; Update updates |
| Indexer.IndexFileStep | src/main/java/Indexing/Indexer.java:220-244 | one file keeps the configuration, only appends to the logs, sends no delete, counts one per write, touches no other path, and keeps the index and ledger in step |
| Indexer.IndexedStep | src/main/java/Indexing/Indexer.java:253-295 | one add or update changes only the index entry under its path, counts one file per write and deletes nothing |
| Indexer.Admitted | src/main/java/Indexing/Indexer.java:204 | a file is admitted iff it exists, can be read, and its lower-cased name ends with a type holding no upper-case letter |
| Indexer.AdmittedPathsIff | src/main/java/Indexing/Indexer.java:204 | a path is admitted iff some step of the walk is an existing, readable, accepted file with that path |
| Indexer.IndexVisits | src/main/java/Indexing/Indexer.java:197-206 | the walk marks seen exactly the admitted files, adds only their paths to the ledger, keeps other hashes, sends no delete, counts each write once, and keeps index and ledger in step |
| Indexer.IndexDir | src/main/java/Indexing/Indexer.java:187-207 | a folder that cannot be listed ends the run; otherwise the ledger learns exactly the admitted paths |
| Indexer.Enumerate | src/main/java/Indexing/Indexer.java:167-168 | the removed set is iterated once per path, in some order |
| Indexer.Deletes | src/main/java/Indexing/Indexer.java:170 | one delete per removed path, in iteration order |
| Indexer.RemovalEvents | src/main/java/Indexing/Indexer.java:168-172 | for the k-th removed path, each listener in registration order hears "<path> REMOVED", block after block, one event per listener per path |
| Indexer.RemovalBlocksCons | src/main/java/Indexing/Indexer.java:168-172 | the first removed path's block followed by the blocks of the other paths are the blocks of all paths |
| Indexer.Reconcile | src/main/java/Indexing/Indexer.java:167-173 | each listed path leaves the index and the ledger, gets one delete and is announced "REMOVED"; everything else, the seen set and the counter are unchanged |
| Indexer.RemovalAnnounced | src/main/java/Indexing/Indexer.java:167-173 | every onIndex listener hears of every removed path |
| Indexer.Index | src/main/java/Indexing/Indexer.java:158-177 | it fails with the lifecycle error iff not set up; afterwards the ledger knows the previously seen paths plus the admitted ones; exactly the known, unseen, unadmitted paths are deleted, after all adds and updates, and each of them is announced as REMOVED to every index listener; the finish listeners hear the number of adds and updates; the counter is reset (with the intended `GetDifference`) |
| Indexer.IndexAsWritten | src/main/java/Indexing/Indexer.java:158-177 | as written, a run fails with the null-seen-set error iff it is set up, the walk completes, the loaded ledger's seen set is null and no file is admitted; in every other case it is `Index` |
| Indexer.WalkSeenSetNull | src/main/java/Indexing/Indexer.java:201-206 | after a completed walk the seen set is still null iff it was null before and the walk admitted no file |
| Indexer.FinishLedger | src/main/java/Indexing/Indexer.java:164-173 | after a run the ledger holds the paths seen before or admitted now, and still agrees with the index |
| Indexer.FinishWrites | src/main/java/Indexing/Indexer.java:164-173 | the run deletes, after all its adds and updates, exactly the known paths that were neither seen nor admitted |
| Indexer.FinishLog | src/main/java/Indexing/Indexer.java:167-176 | every removed path is announced to every onIndex listener; then the finish listeners hear the walk's count and the counter is reset |
| Indexer.LedgerAfterRemovals | src/main/java/Indexing/Indexer.java:167-173 | removing the unseen paths leaves exactly the seen-before or admitted paths in the ledger |
| Indexer.KeysAfterRemovals | src/main/java/Indexing/Indexer.java:164-171 | forgetting the known-but-unseen paths keeps exactly the paths seen before the walk or admitted by it |
| Indexer.WritesAfterRemovals | src/main/java/Indexing/Indexer.java:164-173 | the removal loop appends only deletions after the walk's adds and updates |
| Indexer.DeletedExactlyUnseen | src/main/java/Indexing/Indexer.java:167-170 | a path is deleted iff the ledger knew it and it was neither seen before nor admitted |
| Indexer.RemovalsAnnounced | src/main/java/Indexing/Indexer.java:168-172 | every path the loop handles is announced to every onIndex listener |
| Indexer.LogAfterFinish | src/main/java/Indexing/Indexer.java:175-176 | the finish call appends one event per finish listener carrying the count, and the counter is reset |
| IndexerRuns.Load | src/main/java/Main.java:38-51 | the saved ledger, or a new one, starts the run with nothing seen |
| IndexerRuns.Prepare | src/main/java/Main.java:55-68 | the indexer is set up with the loaded ledger, one listener per channel, the HTML extractor under ".htm" and ".html", and the plain extractor as fallback |
| IndexerRuns.Run | src/main/java/Main.java:55-76 | a run completes iff its `Index` does, fails with `Index`'s error otherwise, and a completed run saves a ledger that knows exactly the admitted files |
| IndexerRuns.RunAsWritten | src/main/java/Main.java:55-76 | as written, a run fails with the null-seen-set error iff it loaded a saved ledger, its walk completes and admits no file; in every other case it is `Run` |
| IndexerRuns.RunOutcome | src/main/java/Main.java:38-137 | a run completes iff its `Index` does; then the ledger's map is saved and the index kept |
| IndexerRuns.RunKnowsExactlyAdmitted | src/main/java/Indexing/Indexer.java:158-177 | after a run, the saved ledger knows exactly the admitted files, and an index consistent with the ledger stays so |
| IndexerRuns.IndexKnowsExactlyAdmitted | src/main/java/Indexing/Indexer.java:158-177 | from a ledger that has seen nothing, a completed `Index` knows exactly the admitted files and keeps index and ledger in step |
| IndexerRuns.VanishedFileRemoved | src/main/java/Indexing/Indexer.java:167-173 | a known file the run does not admit is deleted by its path, forgotten, and announced as REMOVED |
| IndexerRuns.UnreadableFileRemoved | src/main/java/Indexing/Indexer.java:158-207 | a known file that has become unreadable is reported REMOVED and deleted, because it is never marked seen |
| IndexerRuns.SecondCallKeepsVanished | src/main/java/Util/CheckedList.java:26-63 | within one process the seen set is never cleared, so a second `Index` call keeps a file the first call saw even when it has vanished |
| IndexerRuns.IndexNeedsSetUp | src/main/java/Indexing/Indexer.java:127-160 | `Index` fails on a new or closed indexer and does not fail for the lifecycle after set-up |
| IndexerRuns.WalkRecordsHashes | src/main/java/Indexing/Indexer.java:201-206 | after a completed walk, the ledger holds every admitted file's current hash |
| IndexerRuns.FirstFileRecorded | src/main/java/Util/CheckedList.java:92-101 | the hash recorded for the walk's first file survives the rest of the walk when paths are unique |
| IndexerRuns.UpToDateCons | src/main/java/Indexing/Indexer.java:201-206 | a ledger up to date with a walk's first step and with the rest of the walk is up to date with the whole walk |
| IndexerRuns.QuietWalk | src/main/java/Indexing/Indexer.java:231-234 | a walk over files the ledger knows with current hashes only marks them seen |
| IndexerRuns.IndexKeepsWalkedHashes | src/main/java/Indexing/Indexer.java:164-173 | the removal loop only drops entries, so the ledger's remaining hashes are those the walk recorded |
| IndexerRuns.QuietIndex | src/main/java/Indexing/Indexer.java:158-177 | on a tree the ledger holds exactly and currently, `Index` (with the intended `GetDifference`) writes nothing and removes nothing, and the finish listeners hear "0" |
| IndexerRuns.RunLeavesLedgerUpToDate | src/main/java/Indexing/Indexer.java:158-177 | the saved ledger holds the current hash of exactly the admitted files |
| IndexerRuns.IndexLeavesLedgerUpToDate | src/main/java/Indexing/Indexer.java:158-177 | from a ledger that has seen nothing, a completed `Index` holds the current hash of exactly the admitted files |
| IndexerRuns.RerunIsQuiet | src/main/java/Main.java:38-137 | a second run over an unchanged tree sends no write, keeps index and ledger, and reports only "0" to the finish listener (with the intended `GetDifference`) |
| IndexerRuns.RerunIsQuietAsWritten | src/main/java/Main.java:38-137 | when the tree admits at least one file, the second run as written is just as quiet |
| IndexerRuns.RerunCrashesWithNothingAdmitted | src/main/java/Indexing/Indexer.java:167 | after a completed run over a tree that admits no file, the next run as written crashes in `GetDifference` |
| IndexerRuns.EmptyDirectoryRerunCrashes | src/main/java/Indexing/Indexer.java:167 | with an empty document folder and no saved ledger, the first run completes and the second crashes |
| IndexerRuns.RunWalksOnlyFiles | src/main/java/Indexing/Indexer.java:197-206 | a completed run met no directory it could not list |
| IndexerRuns.QuietRun | src/main/java/Main.java:38-137 | a run from a saved ledger that holds exactly the admitted files with current hashes stores the same state again, writes nothing and reports "0" (with the intended `GetDifference`) |
| Information.ExitStatus | src/main/java/Util/Information.java:61-143 | the status is 0 after help and -1 after every error |
| Information.GetText | src/main/java/Util/Information.java:164-168 | a missing element reads as "", and a present one as its text |
| Information.TypesIn | src/main/java/Util/Information.java:215-220 | an extension is taken iff it is a non-empty piece of `split(";")`, lower-cased; each one is non-empty, lower-case and free of ';' |
| Information.LoadSettings | src/main/java/Util/Information.java:198-221 | only the count and the types change; the types become the old ones plus exactly those the text names; the count changes only when `parseInt` succeeds and then takes the parsed value |
| Information.EmptyDocumentChangesNothing | src/main/java/Util/Information.java:206-220 | a document with neither element leaves the configuration as it was |
| Information.CountRoundTrip | src/main/java/Util/Information.java:206-211 | a count written in decimal is read back exactly |
| Information.LoadSettingsIdempotent | src/main/java/Util/Information.java:198-221 | loading the same document twice is loading it once |
| Information.JoinedTypesAdded | src/main/java/Util/Information.java:215-220 | a text of non-empty pieces joined by ';' adds exactly those pieces lower-cased, and removes nothing |
| Information.TypesOfJoin | src/main/java/Util/Information.java:215-220 | a text of non-empty pieces joined by ';' names exactly those pieces, lower-cased |
| Information.TypesOfPair | src/main/java/Util/Information.java:215-220 | two non-empty pieces joined by ';' name the two of them, lower-cased |
| Information.TwoTypesMerged | src/main/java/Util/Information.java:215-220 | two user extensions are added to {".txt"} as written: nothing is replaced and no dot is prepended |
| Information.SettingsMergeExample | src/main/java/Util/Information.java:215-220 | {".txt"} merged with "html;htm" gives {".txt", "html", "htm"} (no dot is prepended) |
| Information.SelectRanking | src/main/java/Util/Information.java:90-101 | VectorSpace iff the upper-cased argument is "VS", Okapi iff it is "OK" |
| Information.RankingIgnoresCase | src/main/java/Util/Information.java:90 | "vs" in any mix of cases selects the vector space model |
| Information.Configure | src/main/java/Util/Information.java:79-130 | a document path that is not a directory, then a wrong model, then an unreadable user file ends the process, each iff its condition holds; otherwise the positions are recorded and the types are those of the built-in document plus, when a user file is named, those of that file |
| Information.UserSettingsLayered | src/main/java/Util/Information.java:106-128 | the built-in settings load first: the types are the union of both, and the user's count wins whenever it parses |
| Information.ApplyArgsAsWritten | src/main/java/Util/Information.java:52-131 | help iff "-h" is present; a usage error iff the list without one "-v" is not 4 or 5 long; otherwise the four positions are read from the raw array, verbose is on iff "-v" occurs, and the settings file is the raw array's fifth element, read exactly when that array has five elements |
| Information.ApplyArgs | src/main/java/Util/Information.java:52-131 | help iff "-h" is present; a usage error iff the list without one "-v" is not 4 or 5 long; on success the positions are read from that list, verbose is on iff "-v" was given, and a user settings file is read iff that list has five elements; with valid arguments the run is configured iff there is no fifth argument or that file can be read, and otherwise it exits naming that file |
| Information.AsWrittenAgreesWithoutVerbose | src/main/java/Util/Information.java:64-131 | without "-v" the written and the intended reading agree |
| Information.AsWrittenReadsVerboseFlagAsSettings | src/main/java/Util/Information.java:115-127 | as written, four positional arguments followed by "-v" make "-v" the settings file and end the process; the intended reading configures the run |
| Information.AsWrittenMisplacesLeadingVerbose | src/main/java/Util/Information.java:79-115 | as written, a leading "-v" is taken for the document folder, and with a settings file the array is six long, so the file is never read |
| Information.VerboseFlagAnywhere | src/main/java/Util/Information.java:64-67 | in the intended reading, inserting "-v" anywhere changes only the verbose flag |
| Numerals.SignedByte | src/main/java/Util/CheckedList.java:82-83 | a digest byte read as a Java `byte` lies in -128..127 and agrees with its bit pattern modulo 256 |
| Numerals.FromToDigits | src/main/java/Util/CheckedList.java:83 | reading back the digits `Integer.toString` writes gives the number |
| Numerals.IntToString | src/main/java/Util/CheckedList.java:83 | the rendering is non-empty and starts with '-' exactly for negative numbers |
| Numerals.ParseInt | src/main/java/Util/Information.java:208 | `parseInt` accepts only values within the 32-bit range; it rejects the empty string, a lone sign and any non-digit other than a leading sign, and a negative result needs a leading '-' |
| Numerals.ParseIntToString | src/main/java/Util/Information.java:208 | every 32-bit value's rendering parses back to it |
| Numerals.ParseUnsigned | src/main/java/Util/Information.java:208 | text with no sign parses as the value of its digits when that fits in 32 bits |
| Numerals.ParseNegative | src/main/java/Util/Information.java:208 | text starting with '-' parses as the negated value of the digits after it when that fits in 32 bits |
| Numerals.ParsePlus | src/main/java/Util/Information.java:208 | text starting with '+' parses as the value of the digits after it when that fits in 32 bits |
| Numerals.ParseRejectsOutOfRange | src/main/java/Util/Information.java:208 | well-formed text whose signed value does not fit in 32 bits is rejected |
| Text.Lower | src/main/java/Indexing/IndexFileFilter.java:23 | lower-casing keeps the length and every character that is not an upper-case letter, and turns each upper-case letter into its lower-case one |
| Text.Upper | src/main/java/Util/Information.java:90 | upper-casing keeps the length and every character that is not a lower-case letter, and turns each lower-case letter into its capital |
| Text.Split | src/main/java/Util/Information.java:215 | the raw pieces between separators, empty ones included, contain no separator and joined with it give the text back |
| Text.SplitJoin | src/main/java/Util/Information.java:215 | splitting the join of separator-free pieces into raw pieces returns the pieces |
| Text.DropTrailingEmpty | src/main/java/Util/Information.java:215 | the result is a prefix of the pieces, everything dropped is empty, and it does not end with an empty piece |
| Text.JavaSplit | src/main/java/Util/Information.java:215 | `split(";")` returns the text itself when the separator does not occur; otherwise the raw pieces without the empty ones at the end; either way its non-empty pieces are exactly the raw pieces' non-empty pieces |
| Text.JavaSplitJoin | src/main/java/Util/Information.java:215 | `split` of the join of non-empty, separator-free pieces returns the pieces |

## Left out

- MD5 and reading a file's bytes are passed in as the `digest` function and the `content` of a file entry. A file whose bytes cannot be read ends the run (`ReadFailed`), as the `System.exit(-1)` at src/main/java/Util/CheckedList.java:75-77 and src/main/java/Indexing/Indexer.java:226-228 does.
- The Lucene `IndexWriter` configuration, the directory, similarity selection, `Searcher` and `TextAnalyzer` are left out. They call a library this model does not include.
- `HTMLIndexer` and `PlainIndexer` are the `extract` function: an extractor either builds fields or fails as its `IOException` does.
- Java serialization of `checked.dat` keeps only the path-to-hash map (`Serialize`/`Deserialize`). The case where reading it fails and the run starts from a new ledger is `Stored.ledger == None`. A failure to write it back is not modelled.
- The search, result printing and all console output other than listener events are left out.
- `getDirectory` and `mkdirs` are left out. Whether a path is a directory is the `isDirectory` input. Creating the index folder has no effect in the model.
- XML parsing is left out. A settings document is the text of its first `number_results` and `file_types` elements. A built-in `settings.xml` that cannot be read is `None` and is ignored, as the catch at src/main/java/Util/Information.java:108-112 does.
- `RankingModel.toString` and `IFileIndexer` are left out. They are a name table and an interface.
- `File.listFiles` order and `HashMap` iteration order are given, not computed. The listing is the order of a directory's children. The removal order is any enumeration of the set. The extractor registry's order is insertion order, and `DispatchOrderIrrelevant` shows this does not matter for the program's registrations.
- A `File` that is a directory and could not be listed (`listFiles` returning null, which `assert files != null` does not stop when assertions are off) ends the run as `UnlistableDirectory`.
- The `IOException`s of `SetUp`, `Close` and the writer's own operations are not modelled.
- Indexer.Index: a Lucene `addDocument` of a path already in the index would store a second document. The map model keeps one document per path, and `Consistent` shows the situation does not arise while index and ledger agree.
- Indexer.IndexFile: the code prints "<path> NEW" or "<path> UPDATE" to the index listeners before the extractor runs (src/main/java/Indexing/Indexer.java:254, before 261 and 268). A run that fails in the extractor is a `Failure` without a log, so the model drops the events the listeners had already heard.
- Indexer.IndexFileAdd: the counter is an unbounded `nat`; the 32-bit `int` overflow after 2^31 indexed files is not modelled.
- FileTree.DirVisits: its own contract states only the directory that cannot be listed. The order of a listed directory's steps is stated by `FileTree.ChildInOrder`, `FileTree.EntryVisitsCons` and `FileTree.EntryVisitsAppend`.
- Indexer.Index: it uses the intended `GetDifference`, so it completes where the code throws a `NullPointerException`. The crash is modelled by `Indexer.IndexAsWritten` and `IndexerRuns.RunAsWritten`; see Findings.
- IndexerRuns.RerunIsQuiet: it is stated for runs with the intended `GetDifference`. As written it holds only when the tree admits a file (`IndexerRuns.RerunIsQuietAsWritten`); otherwise the second run crashes (`IndexerRuns.RerunCrashesWithNothingAdmitted`). The same holds for `IndexerRuns.QuietRun` and `IndexerRuns.QuietIndex`.
- Text.Upper: case mapping covers ASCII letters only, and the result keeps the length. Java's `toUpperCase` also maps other Unicode letters, can lengthen the text ("ß" becomes "SS") and can turn a non-ASCII letter into an ASCII one ("vſ" becomes "VS", which selects VectorSpace where the model reports a wrong ranking).
- Text.Lower: case mapping covers ASCII letters only. Java's `toLowerCase`/`toUpperCase` also map other Unicode letters and depend on the default locale.
- Numerals.ParseInt: only ASCII digits are accepted; Java's `parseInt` also accepts other Unicode decimal digits.
- The global `VERBOSE` flag is a field of the configuration, not process-wide state.

Behaviour of the code that the model keeps:

- **Extractor `IOException`.** `indexFileAdd` and `indexFileUpdate` (src/main/java/Indexing/Indexer.java:253-295) let it propagate out of `Index`, and the catch at src/main/java/Main.java:73-76 ends the process. The model ends the run with `ExtractFailed`; the file is not skipped.
- **Dots in `file_types`.** `loadSettings` adds each piece lower-cased and does not prepend a dot (src/main/java/Util/Information.java:215-220). So ".html;.htm" gives ".html" and ".htm", while "html;htm" gives "html" and "htm".
- **Unreadable files.** `indexDir` passes a file to `indexFile` only when it exists and can be read (src/main/java/Indexing/Indexer.java:204). An unreadable file is never marked seen, so a previously indexed one is reported REMOVED (`IndexerRuns.UnreadableFileRemoved`).
- **Two `Index` calls in one process.** `CheckFile` fills the seen set (src/main/java/Util/CheckedList.java:60-63) and `Index` never clears it (src/main/java/Indexing/Indexer.java:158-177), so a second call keeps what the first saw (`IndexerRuns.SecondCallKeepsVanished`).

## Findings

| source | as written | input that shows it | evidently intended | confidence | as-written member | corrected member |
|---|---|---|---|---|---|---|
| src/main/java/Util/CheckedList.java:26, src/main/java/Util/CheckedList.java:40-48 | `GetDifference` calls `removeAll(controllList)`, and `controllList` is transient, so it is null on a ledger read back from `checked.dat` until `CheckFile` runs | a saved ledger, even an empty one, and a run whose walk admits no file (every file deleted, or none accepted): `removeAll(null)` throws a `NullPointerException`, and the vanished files are never removed | a null seen set means nothing was seen, so every known path is removed | not executed | CheckedList.GetDifferenceAsWrittenFailsUnseen | CheckedList.GetDifference |
| src/main/java/Util/Information.java:79, src/main/java/Util/Information.java:104, src/main/java/Util/Information.java:115 | the positions and the settings-file test read the raw `args` array, not the list with "-v" removed | `docs index VS query -v`: the array is five long, so "-v" is opened as the settings file and the process exits with -1; a leading "-v" is taken for the document folder | "-v" may stand anywhere and the positions are read from the remaining arguments | not executed | Information.AsWrittenReadsVerboseFlagAsSettings | Information.VerboseFlagAnywhere |
| src/main/java/Indexing/Indexer.java:167, src/main/java/Main.java:73 | `Index` calls `GetDifference` after the walk, and `Main` catches only `IOException`, so the `NullPointerException` of a run that loaded `checked.dat` and admitted no file ends the process | an empty document folder: the first run saves an empty ledger, and the second run loads it, checks no file and crashes | the second run completes, removes nothing and reports "0" | not executed | IndexerRuns.RerunCrashesWithNothingAdmitted | IndexerRuns.RerunIsQuiet |

=== FILE: CheckedList.dfy ===
/**
 * The change ledger: a persisted map from file path to content hash, and a
 * transient set of the paths seen during the current run. Comparing the two
 * tells which files are new, changed, unchanged or gone.
 */
module CheckedList {
  import opened Wrappers
  import opened Numerals
  import opened FileTree

  type Hash = string

  /** What `CheckFile` tells the indexer to do with a file. */
  datatype FileState = New | Update | Known

  /**
   * `checkedFiles` is serialized between runs; `controllList` is transient, so
   * `None` stands for the null it holds after deserialization.
   */
  datatype CheckedList = CheckedList(checkedFiles: map<Path, Hash>, controllList: Option<set<Path>>)

  /** The outcome of one `CheckFile` call: the updated ledger and the file's state. */
  datatype Checked = Checked(list: CheckedList, state: FileState)

  /** The paths seen so far in this run, reading a null set as the empty set it is lazily replaced by. */
  function Seen(l: CheckedList): (r: set<Path>)
    ensures forall p :: p in r <==> l.controllList.Some? && p in l.controllList.value
  {
    l.controllList.GetOr({})
  }

  /** `new CheckedList()`: nothing known, nothing seen. */
  function Fresh(): (l: CheckedList)
    ensures l.checkedFiles == map[]
    ensures l.controllList == Some({})
  {
    CheckedList(map[], Some({}))
  }

  /** The part of the ledger that `ObjectOutputStream` writes: only the path-to-hash map. */
  function Serialize(l: CheckedList): (r: map<Path, Hash>)
    ensures r.Keys == l.checkedFiles.Keys
    ensures forall p :: p in r ==> r[p] == l.checkedFiles[p]
  {
    l.checkedFiles
  }

  /** What is saved does not depend on the transient seen set. */
  lemma SerializeIgnoresSeen(l: CheckedList, seen: Option<set<Path>>)
    ensures Serialize(l.(controllList := seen)) == Serialize(l)
  {
  }

  /** A ledger read back by `ObjectInputStream`: the map as saved, the transient set null. */
  function Deserialize(saved: map<Path, Hash>): (l: CheckedList)
    ensures l.checkedFiles == saved
    ensures Seen(l) == {}
  {
    CheckedList(saved, None)
  }

  /** Saving and loading keeps every path and hash and starts the next run with nothing seen. */
  lemma SerializeRoundTrip(l: CheckedList)
    ensures Deserialize(Serialize(l)).checkedFiles == l.checkedFiles
    ensures Seen(Deserialize(Serialize(l))) == {}
  {
  }

  /** `Integer.toString(b, 16)` of one digest byte read as a signed Java `byte`. */
  function ByteHex(b: Byte): (s: string)
    ensures 1 <= |s| <= 3
    ensures (s[0] == '-') == (b >= 128)
  {
    var v := SignedByte(b);
    var m: nat := if v < 0 then -v else v;
    assert m < 256;
    ByteDigitsAtMostTwo(m);
    IntToString(v, 16)
  }

  lemma ByteDigitsAtMostTwo(m: nat)
    requires m < 256
    ensures |ToDigits(m, 16)| <= 2
  {
    if m >= 16 {
      assert ToDigits(m, 16) == ToDigits(m / 16, 16) + [m % 16];
    }
  }

  /** The stored hash: the renderings of the digest bytes, one after another, unpadded. */
  function RenderHash(digest: seq<Byte>): (s: string)
    ensures |digest| <= |s| <= 3 * |digest|
    decreases |digest|
  {
    if |digest| == 0 then "" else ByteHex(digest[0]) + RenderHash(digest[1..])
  }

  /** Each byte's rendering reads back, with `Integer.parseInt(s, 16)`, as the signed byte. */
  lemma ByteHexParses(b: Byte)
    ensures ParseInt(ByteHex(b), 16) == Some(SignedByte(b))
  {
    ParseIntToString(SignedByte(b), 16);
  }

  /** A non-negative byte renders as its hex digits with no leading zero: one digit below 16, two from 16 on. */
  lemma ByteHexUnpadded(hi: nat, lo: nat)
    requires hi < 8 && lo < 16
    ensures ByteHex(hi * 16 + lo) == if hi == 0 then [DigitChar(lo)] else [DigitChar(hi), DigitChar(lo)]
  {
    var n := hi * 16 + lo;
    if hi == 0 {
      assert ToDigits(n, 16) == [lo];
    } else {
      assert n / 16 == hi && n % 16 == lo;
      assert ToDigits(n, 16) == ToDigits(hi, 16) + [lo];
    }
  }

  /**
   * Because the rendering is not fixed-width, two different digests can be
   * stored as the same hash: bytes 0x01 0x23 and 0x12 0x03 both give "123".
   */
  lemma RenderHashNotInjective()
    ensures RenderHash([0x01, 0x23]) == RenderHash([0x12, 0x03]) == "123"
  {
    ByteHexUnpadded(0, 1);
    ByteHexUnpadded(2, 3);
    ByteHexUnpadded(1, 2);
    ByteHexUnpadded(0, 3);
    assert RenderHash([0x01, 0x23]) == ByteHex(0x01) + ByteHex(0x23) by {
      assert [0x01, 0x23][1..] == [0x23];
      assert RenderHash([0x23]) == ByteHex(0x23) + RenderHash([]);
    }
    assert RenderHash([0x12, 0x03]) == ByteHex(0x12) + ByteHex(0x03) by {
      assert [0x12, 0x03][1..] == [0x03];
      assert RenderHash([0x03]) == ByteHex(0x03) + RenderHash([]);
    }
  }

  /**
   * `CheckFile`: record the path as seen, then compare the file's hash with
   * the stored one. An unknown path is stored and `New`; a known path with an
   * equal hash is `Known`; a known path with another hash is overwritten and
   * `Update`.
   */
  function CheckFile(l: CheckedList, path: Path, hash: Hash): (r: Checked)
    ensures r.list.controllList == Some(Seen(l) + {path})
    ensures r.list.checkedFiles == l.checkedFiles[path := hash]
    ensures r.state == New <==> path !in l.checkedFiles
    ensures r.state == Known <==> path in l.checkedFiles && l.checkedFiles[path] == hash
    ensures r.state == Known ==> r.list.checkedFiles == l.checkedFiles
  {
    var seen := Some(Seen(l) + {path});
    if path in l.checkedFiles then
      if l.checkedFiles[path] == hash then Checked(CheckedList(l.checkedFiles, seen), Known)
      else Checked(CheckedList(l.checkedFiles[path := hash], seen), Update)
    else Checked(CheckedList(l.checkedFiles[path := hash], seen), New)
  }

  /** Checking the same content twice gives `New` and then `Known`, and the second call changes nothing. */
  lemma CheckTwiceNewThenKnown(l: CheckedList, path: Path, hash: Hash)
    requires path !in l.checkedFiles
    ensures CheckFile(l, path, hash).state == New
    ensures CheckFile(CheckFile(l, path, hash).list, path, hash).state == Known
    ensures CheckFile(CheckFile(l, path, hash).list, path, hash).list == CheckFile(l, path, hash).list
  {
  }

  /** Re-checking a path with the hash it has just been given is `Known` and a no-op. */
  lemma CheckFileIdempotent(l: CheckedList, path: Path, hash: Hash)
    ensures var once := CheckFile(l, path, hash).list;
            CheckFile(once, path, hash) == Checked(once, Known)
  {
  }

  /** `CheckFile` never touches the entry of another path. */
  lemma CheckFileFramesOtherPaths(l: CheckedList, path: Path, hash: Hash, other: Path)
    requires other != path
    ensures var r := CheckFile(l, path, hash).list;
            (other in r.checkedFiles <==> other in l.checkedFiles)
            && (other in l.checkedFiles ==> r.checkedFiles[other] == l.checkedFiles[other])
            && (other in Seen(r) <==> other in Seen(l))
  {
  }

  /** The sentinel for the `NullPointerException` that `removeAll(null)` throws. */
  datatype NullSeenSet = NullSeenSet

  /**
   * `GetDifference` as written: the keys of a copy of the map, minus the seen
   * set. When no file was checked in a run of a deserialized ledger, the seen
   * set is still null and `removeAll` throws.
   */
  function GetDifferenceAsWritten(l: CheckedList): (r: Result<set<Path>, NullSeenSet>)
    ensures r.Failure? <==> l.controllList.None?
    ensures r.Success? ==> forall p :: p in r.value <==> p in l.checkedFiles && p !in l.controllList.value
  {
    match l.controllList
    case None => Failure(NullSeenSet)
    case Some(seen) => Success(l.checkedFiles.Keys - seen)
  }

  /**
   * A deserialized ledger whose run checked no file cannot report its
   * deletions, even when it knows no path: the call fails instead of
   * returning every known path.
   */
  lemma GetDifferenceAsWrittenFailsUnseen(saved: map<Path, Hash>)
    ensures GetDifferenceAsWritten(Deserialize(saved)).Failure?
    ensures GetDifference(Deserialize(saved)) == saved.Keys
  {
  }

  /**
   * `GetDifference` as intended: the known paths that were not seen in this
   * run. The map itself is left alone, since `CheckedList.java` works on a clone.
   */
  function GetDifference(l: CheckedList): (r: set<Path>)
    ensures forall p :: p in r <==> p in l.checkedFiles && p !in Seen(l)
  {
    l.checkedFiles.Keys - Seen(l)
  }

  /** Whenever the written version does not fail, it agrees with the intended one. */
  lemma GetDifferenceAgrees(l: CheckedList)
    requires l.controllList.Some?
    ensures GetDifferenceAsWritten(l) == Success(GetDifference(l))
  {
  }

  /** `checkedFiles.remove(path)` for a path reported deleted. */
  function Forget(l: CheckedList, path: Path): (r: CheckedList)
    ensures r.checkedFiles.Keys == l.checkedFiles.Keys - {path}
    ensures forall p :: p in r.checkedFiles ==> r.checkedFiles[p] == l.checkedFiles[p]
    ensures r.controllList == l.controllList
  {
    CheckedList(l.checkedFiles - {path}, l.controllList)
  }
}

=== FILE: FileTree.dfy ===
/**
 * The part of `java.io.File` that the indexer looks at: a tree of directories
 * and files, each directory listing its entries in the order `listFiles`
 * returns them. What the file system answers (existence, readability, the
 * bytes a read returns) is carried in the tree as data.
 */
module FileTree {
  import opened Wrappers
  import opened Numerals

  /** `File.getPath()`. */
  type Path = string

  /** A file's bytes. */
  type Content = seq<Byte>

  /**
   * A non-directory entry; `present` is `File.exists()` and `readable` is
   * `File.canRead()`. `content` is `None` when reading the file throws
   * an `IOException`.
   */
  datatype FileEntry = FileEntry(name: string, path: Path, present: bool, readable: bool, content: Option<Content>)

  /**
   * A file or a directory. A directory whose `listFiles` returns null (it
   * cannot be listed) has `listable == false`.
   */
  datatype Node =
    | File(entry: FileEntry)
    | Dir(name: string, path: Path, listable: bool, children: seq<Node>)

  /** `File.getPath()` of a file or directory. */
  function NodePath(n: Node): Path {
    match n
    case File(f) => f.path
    case Dir(_, path, _, _) => path
  }

  /** One step of the walk: a file to consider, or a directory whose listing failed. */
  datatype Visit = Candidate(file: FileEntry) | Unlisted(path: Path)

  /**
   * The steps `indexDir(dir)` takes, in order: it lists `dir` (a failed
   * listing is one `Unlisted` step), recurses into every directory entry and
   * considers every other entry, in listing order.
   */
  function DirVisits(dir: Node): (vs: seq<Visit>)
    ensures !(dir.Dir? && dir.listable) ==> vs == [Unlisted(NodePath(dir))]
    decreases dir
  {
    if dir.Dir? && dir.listable then EntryVisits(dir.children) else [Unlisted(NodePath(dir))]
  }

  /** The steps for a directory's entries, one after another. */
  function EntryVisits(entries: seq<Node>): seq<Visit>
    decreases entries
  {
    if |entries| == 0 then []
    else
      var first := match entries[0]
        case File(f) => [Candidate(f)]
        case Dir(_, _, _, _) => DirVisits(entries[0]);
      first + EntryVisits(entries[1..])
  }

  /** The steps one entry of a listed directory contributes: the entry itself, or the walk below it. */
  function ChildVisits(child: Node): seq<Visit> {
    match child
    case File(f) => [Candidate(f)]
    case Dir(_, _, _, _) => DirVisits(child)
  }

  /** The steps for two runs of entries are the steps for the first run, then for the second. */
  lemma {:induction false} EntryVisitsAppend(a: seq<Node>, b: seq<Node>)
    ensures EntryVisits(a + b) == EntryVisits(a) + EntryVisits(b)
    decreases |a|
  {
    if |a| == 0 {
      assert a + b == b;
    } else {
      assert (a + b)[0] == a[0];
      assert (a + b)[1..] == a[1..] + b;
      EntryVisitsAppend(a[1..], b);
    }
  }

  /**
   * A listed directory's walk is, for every entry, the steps of the entries
   * listed before it, then the entry's own steps (the file, or the whole walk
   * of the sub-directory), then the steps of the entries listed after it.
   */
  lemma ChildInOrder(dir: Node, i: nat)
    requires dir.Dir? && dir.listable && i < |dir.children|
    ensures DirVisits(dir) == EntryVisits(dir.children[..i]) + ChildVisits(dir.children[i]) + EntryVisits(dir.children[i + 1..])
  {
    var cs := dir.children;
    var tail := cs[i..];
    assert DirVisits(dir) == EntryVisits(cs);
    assert cs == cs[..i] + tail;
    EntryVisitsAppend(cs[..i], tail);
    EntryVisitsCons(tail);
    assert tail[0] == cs[i] && tail[1..] == cs[i + 1..];
  }

  /** The steps for a non-empty run of entries: the first entry's, then the rest's. */
  lemma EntryVisitsCons(entries: seq<Node>)
    requires |entries| > 0
    ensures EntryVisits(entries) == ChildVisits(entries[0]) + EntryVisits(entries[1..])
  {
    match entries[0]
    case File(_) =>
    case Dir(_, _, _, _) =>
  }

  /** Every file entry of a listed directory is a step of its walk. */
  lemma FileChildVisited(dir: Node, i: nat)
    requires dir.Dir? && dir.listable && i < |dir.children| && dir.children[i].File?
    ensures Candidate(dir.children[i].entry) in DirVisits(dir)
  {
    ChildInOrder(dir, i);
  }

  /** A tree in which every directory can be listed. */
  predicate Listable(n: Node)
    decreases n
  {
    match n
    case File(_) => true
    case Dir(_, _, listable, children) => listable && forall i :: 0 <= i < |children| ==> Listable(children[i])
  }

  /** Walking a tree whose directories can all be listed meets no failed listing. */
  lemma {:induction false} ListableWalkHasNoUnlisted(dir: Node)
    requires dir.Dir? && Listable(dir)
    ensures forall v :: v in DirVisits(dir) ==> v.Candidate?
    decreases dir, 1
  {
    EntriesListableHaveNoUnlisted(dir, 0);
  }

  lemma {:induction false} EntriesListableHaveNoUnlisted(dir: Node, from: nat)
    requires dir.Dir? && Listable(dir) && from <= |dir.children|
    ensures forall v :: v in EntryVisits(dir.children[from..]) ==> v.Candidate?
    decreases dir, 0, |dir.children| - from
  {
    if from < |dir.children| {
      var entries := dir.children[from..];
      assert entries[1..] == dir.children[from + 1..];
      EntriesListableHaveNoUnlisted(dir, from + 1);
      var child := dir.children[from];
      if child.Dir? {
        ListableWalkHasNoUnlisted(child);
      }
    } else {
      assert dir.children[from..] == [];
    }
  }
}

=== FILE: IndexFileFilter.dfy ===
/**
 * The walk's file filter: a file is accepted when its lower-cased name ends
 * with one of the configured file types.
 */
module IndexFileFilter {
  import opened Text

  /**
   * `accept(f)`, where `name` is `f.getName()`: only the name counts, not the
   * parent path. Only the name is lower-cased, so a file type holding an
   * upper-case letter never matches anything.
   */
  predicate Accept(fileTypes: set<string>, name: string): (r: bool)
    ensures r <==> exists t :: t in fileTypes && NoUpper(t) && EndsWith(Lower(name), t)
  {
    MatchedTypesHaveNoUpper(fileTypes, name);
    exists t :: t in fileTypes && EndsWith(Lower(name), t)
  }

  /** A file type some lower-cased name ends with holds no upper-case letter. */
  lemma MatchedTypesHaveNoUpper(fileTypes: set<string>, name: string)
    ensures forall t :: t in fileTypes && EndsWith(Lower(name), t) ==> NoUpper(t)
  {
  }

  /** With no file types, nothing is accepted. */
  lemma AcceptNothingWhenEmpty(name: string)
    ensures !Accept({}, name)
  {
  }

  /** Adding file types never rejects a file that was accepted. */
  lemma AcceptMonotone(small: set<string>, large: set<string>, name: string)
    requires small <= large
    ensures Accept(small, name) ==> Accept(large, name)
  {
  }

  /** The filter matches names case-insensitively: two names equal up to case are treated alike. */
  lemma AcceptIgnoresCase(fileTypes: set<string>, name: string, other: string)
    requires Lower(name) == Lower(other)
    ensures Accept(fileTypes, name) <==> Accept(fileTypes, other)
  {
  }

  /**
   * A file type holding an upper-case letter never matches, because only the
   * file name is lower-cased: dropping such types changes nothing.
   */
  lemma UpperCaseTypesNeverMatch(fileTypes: set<string>, name: string)
    ensures Accept(fileTypes, name) <==> Accept((set t | t in fileTypes && NoUpper(t)), name)
  {
    if Accept(fileTypes, name) {
      var t :| t in fileTypes && NoUpper(t) && EndsWith(Lower(name), t);
      assert t in (set t | t in fileTypes && NoUpper(t));
    }
  }
}

=== FILE: Indexer.dfy ===
/**
 * The orchestrator: it walks the document tree, asks the ledger what each
 * accepted file's state is, adds or updates the index accordingly, deletes
 * the documents of files that vanished, and reports progress to listeners.
 *
 * The Lucene index is a map from the `path` key to the document stored under
 * it; every mutation sent to the writer is also kept, in order, in `writes`.
 * Listeners are identities; calling them appends one event per listener to
 * `log`, which is how their observable effect is modelled.
 */
module Indexer {
  import opened Wrappers
  import opened Text
  import opened Numerals
  import opened FileTree
  import opened CheckedList
  import opened IndexFileFilter

  /** Which `IFileIndexer` builds a document. */
  type ExtractorId = string

  /** A registered `IStringListener`, by identity. */
  type ListenerId = nat

  /** Whatever fields an extractor adds besides `path`. */
  type Fields = map<string, string>

  /** A Lucene document; both extractors tag it with the file's path. */
  datatype Document = Document(path: Path, extractor: ExtractorId, fields: Fields)

  /** A mutation sent to the `IndexWriter`. */
  datatype Write =
    | AddDocument(doc: Document)
    | UpdateDocument(key: Path, doc: Document)
    | DeleteDocuments(key: Path)

  datatype Channel = OnIndex | OnFinish

  /** One listener receiving one message. */
  datatype Event = Event(channel: Channel, listener: ListenerId, message: string)

  /** One entry of the extension-to-extractor map, in the map's iteration order. */
  datatype Registration = Registration(suffix: string, extractor: ExtractorId)

  /**
   * The collaborators the core calls but does not implement: the MD5 digest
   * of a file's bytes, and the extractors, which yield `None` where they
   * throw an `IOException`.
   */
  datatype Collaborators = Collaborators(
    digest: Content -> seq<Byte>,
    extract: (ExtractorId, Path, Content) -> Option<Fields>)

  /** Why a call to `Index` did not complete. */
  datatype RunError =
    | NotSetUp                     // IllegalStateException
    | UnlistableDirectory(p: Path) // listFiles returned null
    | ReadFailed(p: Path)          // hashing the file threw; the process exits
    | ExtractFailed(p: Path)       // the extractor threw an IOException
    | SeenSetNull                  // GetDifference threw a NullPointerException

  datatype Indexer = Indexer(
    setup: bool,
    list: CheckedList,
    registry: seq<Registration>,
    backUp: ExtractorId,
    index: map<Path, Document>,
    writes: seq<Write>,
    counter: nat,
    onIndex: seq<ListenerId>,
    onFinish: seq<ListenerId>,
    log: seq<Event>)

  /**
   * The index and the ledger agree: they know the same paths, and each
   * document sits under its own path.
   */
  ghost predicate Consistent(ix: Indexer) {
    && ix.index.Keys == ix.list.checkedFiles.Keys
    && forall p :: p in ix.index ==> ix.index[p].path == p
  }

  // ---------------------------------------------------------------- lifecycle

  /**
   * `new Indexer()`: not set up, counter zero, no listeners, no extractors.
   * The ledger and fallback extractor are placeholders that `SetUp` replaces
   * before `Index` can run.
   */
  function Create(): (ix: Indexer)
    ensures !ix.setup && ix.counter == 0
    ensures ix.onIndex == [] && ix.onFinish == [] && ix.registry == []
  {
    Indexer(false, Fresh(), [], "", map[], [], 0, [], [], [])
  }

  /**
   * `SetUp`: adopt the ledger and the fallback extractor and open a writer on
   * the index directory, whose documents are `stored`.
   */
  function SetUp(ix: Indexer, stored: map<Path, Document>, list: CheckedList, backUp: ExtractorId): (r: Indexer)
    ensures r.setup
    ensures r.list == list && r.backUp == backUp && r.index == stored
    ensures r.registry == ix.registry && r.onIndex == ix.onIndex && r.onFinish == ix.onFinish
    ensures r.counter == ix.counter && r.log == ix.log
    ensures r == ix.(setup := true, list := list, backUp := backUp, index := stored)
  {
    ix.(setup := true, list := list, backUp := backUp, index := stored)
  }

  /** `Close`: the writer commits and the indexer must be set up again. */
  function Close(ix: Indexer): (r: Indexer)
    ensures !r.setup
    ensures r.index == ix.index && r.list == ix.list && r.log == ix.log
    ensures r == ix.(setup := r.setup)
  {
    ix.(setup := false)
  }

  // ---------------------------------------------------------------- listeners

  /** Registering a new listener and removing it again restores the list. */
  lemma AddThenRemoveListener(ls: seq<ListenerId>, l: ListenerId)
    requires l !in ls
    ensures RemoveFirst(ls + [l], l) == ls
  {
    var k := IndexOf(ls + [l], l);
    assert k == |ls|;
    assert (ls + [l])[..k] == ls;
  }

  function AddOnIndex(ix: Indexer, l: ListenerId): (r: Indexer)
    ensures r.onIndex == ix.onIndex + [l] && r.onFinish == ix.onFinish
    ensures r == ix.(onIndex := r.onIndex)
  {
    ix.(onIndex := ix.onIndex + [l])
  }

  function AddOnFinish(ix: Indexer, l: ListenerId): (r: Indexer)
    ensures r.onFinish == ix.onFinish + [l] && r.onIndex == ix.onIndex
    ensures r == ix.(onFinish := r.onFinish)
  {
    ix.(onFinish := ix.onFinish + [l])
  }

  /** `RemoveOnIndex`: `List.remove(Object)` drops the first registration of `l`, if any. */
  function RemoveOnIndex(ix: Indexer, l: ListenerId): (r: Indexer)
    ensures r == ix.(onIndex := r.onIndex)
    ensures l !in ix.onIndex ==> r == ix
    ensures l in ix.onIndex ==> && |r.onIndex| == |ix.onIndex| - 1
                                && var k := IndexOf(ix.onIndex, l);
                                   ix.onIndex == r.onIndex[..k] + [l] + r.onIndex[k..]
  {
    ix.(onIndex := RemoveFirst(ix.onIndex, l))
  }

  /** `RemoveOnFinish`: `List.remove(Object)` drops the first registration of `l`, if any. */
  function RemoveOnFinish(ix: Indexer, l: ListenerId): (r: Indexer)
    ensures r == ix.(onFinish := r.onFinish)
    ensures l !in ix.onFinish ==> r == ix
    ensures l in ix.onFinish ==> && |r.onFinish| == |ix.onFinish| - 1
                                 && var k := IndexOf(ix.onFinish, l);
                                    ix.onFinish == r.onFinish[..k] + [l] + r.onFinish[k..]
  {
    ix.(onFinish := RemoveFirst(ix.onFinish, l))
  }

  /** Every listener of a channel receives the message once, in registration order. */
  function Notify(listeners: seq<ListenerId>, channel: Channel, message: string): (es: seq<Event>)
    ensures |es| == |listeners|
    ensures forall i :: 0 <= i < |es| ==> es[i] == Event(channel, listeners[i], message)
  {
    seq(|listeners|, i requires 0 <= i < |listeners| => Event(channel, listeners[i], message))
  }

  /** `CallOnIndex`: every on-index listener, in registration order, receives `message`; nothing else changes. */
  function CallOnIndex(ix: Indexer, message: string): (r: Indexer)
    ensures r == ix.(log := r.log)
    ensures ix.log <= r.log && |r.log| == |ix.log| + |ix.onIndex|
    ensures forall i :: 0 <= i < |ix.onIndex| ==> r.log[|ix.log| + i] == Event(OnIndex, ix.onIndex[i], message)
  {
    ix.(log := ix.log + Notify(ix.onIndex, OnIndex, message))
  }

  /** `CallOnFinish`: every on-finish listener, in registration order, receives `message`; nothing else changes. */
  function CallOnFinish(ix: Indexer, message: string): (r: Indexer)
    ensures r == ix.(log := r.log)
    ensures ix.log <= r.log && |r.log| == |ix.log| + |ix.onFinish|
    ensures forall i :: 0 <= i < |ix.onFinish| ==> r.log[|ix.log| + i] == Event(OnFinish, ix.onFinish[i], message)
  {
    ix.(log := ix.log + Notify(ix.onFinish, OnFinish, message))
  }

  // ---------------------------------------------------------------- extractor registry

  /** The registry holds each suffix at most once. */
  predicate DistinctSuffixes(reg: seq<Registration>) {
    forall i, j :: 0 <= i < j < |reg| ==> reg[i].suffix != reg[j].suffix
  }

  /** `get(suffix)` on the registry. */
  function Lookup(reg: seq<Registration>, suffix: string): (r: Option<ExtractorId>)
    ensures r.Some? <==> exists i :: 0 <= i < |reg| && reg[i].suffix == suffix
    ensures r.Some? ==> exists i :: && 0 <= i < |reg| && reg[i].suffix == suffix && r.value == reg[i].extractor
                                    && forall j :: 0 <= j < i ==> reg[j].suffix != suffix
    decreases |reg|
  {
    if |reg| == 0 then None
    else if reg[0].suffix == suffix then Some(reg[0].extractor)
    else
      var r := Lookup(reg[1..], suffix);
      assert r.Some? ==> exists i :: 0 <= i < |reg[1..]| && reg[1..][i].suffix == suffix;
      if r.Some? then
        var i :| && 0 <= i < |reg[1..]| && reg[1..][i].suffix == suffix && r.value == reg[1..][i].extractor
                 && forall j :: 0 <= j < i ==> reg[1..][j].suffix != suffix;
        assert reg[i + 1] == reg[1..][i];
        assert forall j :: 1 <= j < i + 1 ==> reg[j] == reg[1..][j - 1];
        r
      else r
  }

  /**
   * `put(suffix, x)`: an existing entry keeps its place and takes the new
   * extractor; a new suffix goes after the others.
   */
  function Put(reg: seq<Registration>, suffix: string, x: ExtractorId): (r: seq<Registration>)
    requires DistinctSuffixes(reg)
    ensures DistinctSuffixes(r)
    ensures Lookup(r, suffix) == Some(x)
    ensures forall s :: s != suffix ==> Lookup(r, s) == Lookup(reg, s)
    ensures |r| == if Lookup(reg, suffix).Some? then |reg| else |reg| + 1
    decreases |reg|
  {
    if |reg| == 0 then [Registration(suffix, x)]
    else if reg[0].suffix == suffix then [Registration(suffix, x)] + reg[1..]
    else
      var rest := Put(reg[1..], suffix, x);
      assert Lookup(reg[1..], reg[0].suffix).None?;
      assert Lookup(rest, reg[0].suffix).None?;
      [reg[0]] + rest
  }

  /** `AddFileIndexer`: register `x` under the lower-cased extension. */
  function AddFileIndexer(ix: Indexer, extension: string, x: ExtractorId): (r: Indexer)
    requires DistinctSuffixes(ix.registry)
    ensures DistinctSuffixes(r.registry)
    ensures Lookup(r.registry, Lower(extension)) == Some(x)
    ensures forall s :: s != Lower(extension) ==> Lookup(r.registry, s) == Lookup(ix.registry, s)
    ensures r == ix.(registry := r.registry)
  {
    ix.(registry := Put(ix.registry, Lower(extension), x))
  }

  /**
   * The extractor for a lower-cased file name: the first registration, in
   * iteration order, whose suffix ends the name; otherwise the fallback.
   */
  function Dispatch(reg: seq<Registration>, backUp: ExtractorId, name: string): (x: ExtractorId)
    ensures (forall i :: 0 <= i < |reg| ==> !EndsWith(name, reg[i].suffix)) ==> x == backUp
    ensures (exists i :: 0 <= i < |reg| && EndsWith(name, reg[i].suffix)) ==>
              exists i :: 0 <= i < |reg| && EndsWith(name, reg[i].suffix) && x == reg[i].extractor
                          && forall j :: 0 <= j < i ==> !EndsWith(name, reg[j].suffix)
    decreases |reg|
  {
    if |reg| == 0 then backUp
    else if EndsWith(name, reg[0].suffix) then reg[0].extractor
    else
      var x := Dispatch(reg[1..], backUp, name);
      if exists i :: 0 <= i < |reg| && EndsWith(name, reg[i].suffix) then
        var k :| 0 <= k < |reg| && EndsWith(name, reg[k].suffix);
        assert reg[1..][k - 1] == reg[k];
        var i :| 0 <= i < |reg[1..]| && EndsWith(name, reg[1..][i].suffix) && x == reg[1..][i].extractor
                 && forall j :: 0 <= j < i ==> !EndsWith(name, reg[1..][j].suffix);
        assert forall j :: 1 <= j < i + 1 ==> reg[j] == reg[1..][j - 1];
        x
      else x
  }

  /**
   * When at most one registration matches a name, the iteration order does
   * not matter: any registry with the same entries dispatches alike.
   */
  lemma DispatchOrderIrrelevant(reg: seq<Registration>, other: seq<Registration>, backUp: ExtractorId, name: string)
    requires forall e :: e in reg <==> e in other
    requires forall i, j :: 0 <= i < |reg| && 0 <= j < |reg| && EndsWith(name, reg[i].suffix) && EndsWith(name, reg[j].suffix) ==> reg[i] == reg[j]
    ensures Dispatch(reg, backUp, name) == Dispatch(other, backUp, name)
  {
    var x := Dispatch(reg, backUp, name);
    var y := Dispatch(other, backUp, name);
    if i :| 0 <= i < |reg| && EndsWith(name, reg[i].suffix) {
      var a :| 0 <= a < |reg| && EndsWith(name, reg[a].suffix) && x == reg[a].extractor;
      assert reg[i] in other;
      var k :| 0 <= k < |other| && other[k] == reg[i];
      var b :| 0 <= b < |other| && EndsWith(name, other[b].suffix) && y == other[b].extractor;
      assert other[b] in reg;
      var c :| 0 <= c < |reg| && reg[c] == other[b];
      assert reg[a] == reg[c];
    } else {
      forall k | 0 <= k < |other|
        ensures !EndsWith(name, other[k].suffix)
      {
        assert other[k] in reg;
        var c :| 0 <= c < |reg| && reg[c] == other[k];
      }
    }
  }

  /** The two suffixes the program registers can never both end one name. */
  lemma HtmlSuffixesExclusive(name: string)
    ensures !(EndsWith(name, ".htm") && EndsWith(name, ".html"))
  {
    if EndsWith(name, ".html") {
      assert name[|name| - 5..][1] == 'h';
      assert name[|name| - 4..][0] == 'h';
    }
  }

  /**
   * The program registers one HTML extractor under ".htm" and ".html" and
   * falls back to the plain one: HTML names of either case go to the HTML
   * extractor whatever the map's iteration order, everything else to the
   * fallback.
   */
  lemma ProgramDispatch(html: ExtractorId, plain: ExtractorId, name: string)
    ensures var reg := AddFileIndexer(AddFileIndexer(Create(), ".htm", html), ".html", html).registry;
            && reg == [Registration(".htm", html), Registration(".html", html)]
            && Dispatch(reg, plain, Lower(name)) == Dispatch([reg[1], reg[0]], plain, Lower(name))
            && Dispatch(reg, plain, Lower(name)) == (if EndsWith(Lower(name), ".htm") || EndsWith(Lower(name), ".html") then html else plain)
  {
    var reg := AddFileIndexer(AddFileIndexer(Create(), ".htm", html), ".html", html).registry;
    assert Lower(".htm") == ".htm";
    assert Lower(".html") == ".html";
    HtmlSuffixesExclusive(Lower(name));
    DispatchOrderIrrelevant(reg, [reg[1], reg[0]], plain, Lower(name));
  }

  // ---------------------------------------------------------------- one file

  /** The hash the ledger stores for a file's bytes: the unpadded hex rendering of its digest. */
  function FileHash(env: Collaborators, c: Content): Hash {
    RenderHash(env.digest(c))
  }

  /** The index after the writer applies one mutation. */
  function ApplyWrite(index: map<Path, Document>, w: Write): (r: map<Path, Document>)
    ensures w.DeleteDocuments? ==> r.Keys == index.Keys - {w.key}
    ensures w.AddDocument? || w.UpdateDocument? ==> w.doc.path in r && r[w.doc.path] == w.doc
    ensures forall p :: p != (if w.DeleteDocuments? || w.UpdateDocument? then w.key else w.doc.path) && p != (if w.DeleteDocuments? then w.key else w.doc.path)
                        ==> (p in r <==> p in index) && (p in r ==> r[p] == index[p])
  {
    match w
    case AddDocument(doc) => index[doc.path := doc]
    case UpdateDocument(key, doc) => (index - {key})[doc.path := doc]
    case DeleteDocuments(key) => index - {key}
  }

  /** Hand one mutation to the writer: it is recorded last, applied to the index, and nothing else changes. */
  function Send(ix: Indexer, w: Write): (r: Indexer)
    ensures r == ix.(index := r.index, writes := r.writes)
    ensures r.writes == ix.writes + [w]
    ensures w.DeleteDocuments? ==> w.key !in r.index
    ensures !w.DeleteDocuments? ==> w.doc.path in r.index && r.index[w.doc.path] == w.doc
  {
    ix.(index := ApplyWrite(ix.index, w), writes := ix.writes + [w])
  }

  /** Everything a run does not change: lifecycle flag, registry, fallback, listeners. */
  ghost predicate SameConfig(a: Indexer, b: Indexer) {
    && a.setup == b.setup && a.registry == b.registry && a.backUp == b.backUp
    && a.onIndex == b.onIndex && a.onFinish == b.onFinish
  }

  /**
   * `after` is `before` once a file at `path` has been announced with `tag`,
   * counted, and written with a single add (or, for an update, a single
   * update keyed on its path) of a document under its own path.
   */
  ghost predicate Indexed(before: Indexer, after: Indexer, path: Path, tag: string, update: bool) {
    && SameConfig(before, after)
    && after.list == before.list
    && after.log == before.log + Notify(before.onIndex, OnIndex, path + tag)
    && after.counter == before.counter + 1
    && path in after.index && after.index[path].path == path
    && after.index == before.index[path := after.index[path]]
    && after.writes == before.writes + [if update then UpdateDocument(path, after.index[path]) else AddDocument(after.index[path])]
  }

  /** The extractor for a file and the document it builds, `None` when it throws. */
  function Extract(ix: Indexer, env: Collaborators, f: FileEntry, c: Content): (d: Option<Document>)
    ensures d.Some? ==> d.value.path == f.path && d.value.extractor == Dispatch(ix.registry, ix.backUp, Lower(f.name))
    // it fails exactly when the dispatched extractor throws, and otherwise carries that extractor's fields
    ensures var x := Dispatch(ix.registry, ix.backUp, Lower(f.name));
            && (d.None? <==> env.extract(x, f.path, c).None?)
            && (d.Some? ==> d.value.fields == env.extract(x, f.path, c).value)
  {
    var x := Dispatch(ix.registry, ix.backUp, Lower(f.name));
    match env.extract(x, f.path, c)
    case None => None
    case Some(fields) => Some(Document(f.path, x, fields))
  }

  /**
   * `indexFileAdd`: announce "<path> NEW", count the file, then add the
   * document its extractor builds.
   */
  function IndexFileAdd(ix: Indexer, env: Collaborators, f: FileEntry, c: Content): (r: Result<Indexer, RunError>)
    ensures r.Failure? <==> Extract(ix, env, f, c).None?
    ensures r.Failure? ==> r.error == ExtractFailed(f.path)
    ensures r.Success? ==> Indexed(ix, r.value, f.path, " NEW", false)
    ensures r.Success? ==> r.value.index[f.path] == Extract(ix, env, f, c).value
  {
    var announced := CallOnIndex(ix, f.path + " NEW").(counter := ix.counter + 1);
    match Extract(ix, env, f, c)
    case None => Failure(ExtractFailed(f.path))
    case Some(doc) => Success(Send(announced, AddDocument(doc)))
  }

  /**
   * `indexFileUpdate`: announce "<path> UPDATE", count the file, then replace
   * the documents under its `path` term with the one its extractor builds.
   */
  function IndexFileUpdate(ix: Indexer, env: Collaborators, f: FileEntry, c: Content): (r: Result<Indexer, RunError>)
    ensures r.Failure? <==> Extract(ix, env, f, c).None?
    ensures r.Failure? ==> r.error == ExtractFailed(f.path)
    ensures r.Success? ==> Indexed(ix, r.value, f.path, " UPDATE", true)
    ensures r.Success? ==> r.value.index[f.path] == Extract(ix, env, f, c).value
  {
    var announced := CallOnIndex(ix, f.path + " UPDATE").(counter := ix.counter + 1);
    match Extract(ix, env, f, c)
    case None => Failure(ExtractFailed(f.path))
    case Some(doc) => Success(Send(announced, UpdateDocument(f.path, doc)))
  }

  /**
   * `indexFile`: classify the file with the ledger, then do nothing, add or
   * update. A file that cannot be read for hashing ends the run.
   */
  function IndexFile(ix: Indexer, env: Collaborators, f: FileEntry): (r: Result<Indexer, RunError>)
    ensures f.content.None? ==> r == Failure(ReadFailed(f.path))
    ensures r.Failure? ==> r.error in {ReadFailed(f.path), ExtractFailed(f.path)}
    ensures f.content.Some? ==>
              var checked := CheckFile(ix.list, f.path, FileHash(env, f.content.value));
              var classified := ix.(list := checked.list);
              && (checked.state == Known ==> r == Success(classified))
              && (checked.state == New && r.Success? ==> Indexed(classified, r.value, f.path, " NEW", false))
              && (checked.state == Update && r.Success? ==> Indexed(classified, r.value, f.path, " UPDATE", true))
              && (r.Failure? <==> checked.state != Known && Extract(classified, env, f, f.content.value).None?)
  {
    match f.content
    case None => Failure(ReadFailed(f.path))
    case Some(c) =>
      var checked := CheckFile(ix.list, f.path, FileHash(env, c));
      var classified := ix.(list := checked.list);
      match checked.state
      case Known => Success(classified)
      case New => IndexFileAdd(classified, env, f, c)
      case Update => IndexFileUpdate(classified, env, f, c)
  }

  /** A successful `IndexFile` keeps the configuration, grows the logs, and keeps index and ledger in step. */
  lemma IndexFileStep(ix: Indexer, env: Collaborators, f: FileEntry)
    requires IndexFile(ix, env, f).Success?
    ensures var r := IndexFile(ix, env, f).value;
            && f.content.Some?
            && r.list == CheckFile(ix.list, f.path, FileHash(env, f.content.value)).list
            && SameConfig(ix, r)
            && ix.writes <= r.writes && ix.log <= r.log
            && (forall i :: |ix.writes| <= i < |r.writes| ==> !r.writes[i].DeleteDocuments?)
            && r.counter == ix.counter + (|r.writes| - |ix.writes|)
            && (forall p :: p != f.path ==> (p in r.index <==> p in ix.index) && (p in ix.index ==> r.index[p] == ix.index[p]))
            && (Consistent(ix) ==> Consistent(r))
  {
    var c := f.content.value;
    var checked := CheckFile(ix.list, f.path, FileHash(env, c));
    var classified := ix.(list := checked.list);
    var r := IndexFile(ix, env, f).value;
    if checked.state != Known {
      IndexedStep(classified, r, f.path, if checked.state == New then " NEW" else " UPDATE", checked.state == Update);
    }
  }

  /** One add or update changes only the entry under its path, counts one file and deletes nothing. */
  lemma IndexedStep(before: Indexer, after: Indexer, path: Path, tag: string, update: bool)
    requires Indexed(before, after, path, tag, update)
    ensures before.writes <= after.writes && before.log <= after.log
    ensures forall i :: |before.writes| <= i < |after.writes| ==> !after.writes[i].DeleteDocuments?
    ensures after.counter == before.counter + (|after.writes| - |before.writes|)
    ensures forall p :: p != path ==> (p in after.index <==> p in before.index) && (p in before.index ==> after.index[p] == before.index[p])
    ensures Consistent(before) && path in before.list.checkedFiles ==> Consistent(after)
  {
  }

  // ---------------------------------------------------------------- the walk

  /** `indexDir`'s test for a non-directory entry: it exists, can be read, and passes the filter. */
  predicate Admitted(fileTypes: set<string>, f: FileEntry): (r: bool)
    ensures r <==> && f.present && f.readable
                   && exists t :: t in fileTypes && NoUpper(t) && EndsWith(Lower(f.name), t)
  {
    f.present && f.readable && Accept(fileTypes, f.name)
  }

  /** The paths of the admitted files among the walk's steps. */
  ghost function AdmittedPaths(fileTypes: set<string>, vs: seq<Visit>): set<Path>
    decreases |vs|
  {
    if |vs| == 0 then {}
    else (if vs[0].Candidate? && Admitted(fileTypes, vs[0].file) then {vs[0].file.path} else {})
         + AdmittedPaths(fileTypes, vs[1..])
  }

  /** A path is admitted exactly when some step of the walk is an admitted file with that path. */
  lemma {:induction false} AdmittedPathsIff(fileTypes: set<string>, vs: seq<Visit>, p: Path)
    ensures p in AdmittedPaths(fileTypes, vs)
            <==> exists i :: 0 <= i < |vs| && vs[i].Candidate? && Admitted(fileTypes, vs[i].file) && vs[i].file.path == p
    decreases |vs|
  {
    if |vs| > 0 {
      AdmittedPathsIff(fileTypes, vs[1..], p);
      if exists i :: 0 <= i < |vs[1..]| && vs[1..][i].Candidate? && Admitted(fileTypes, vs[1..][i].file) && vs[1..][i].file.path == p {
        var i :| 0 <= i < |vs[1..]| && vs[1..][i].Candidate? && Admitted(fileTypes, vs[1..][i].file) && vs[1..][i].file.path == p;
        assert vs[i + 1] == vs[1..][i];
      }
      if i :| 0 <= i < |vs| && vs[i].Candidate? && Admitted(fileTypes, vs[i].file) && vs[i].file.path == p {
        if i > 0 {
          assert vs[1..][i - 1] == vs[i];
        }
      }
    }
  }

  /**
   * The walk: every admitted file goes through `IndexFile`, every other
   * file is passed over, and a directory that cannot be listed ends the run.
   */
  function IndexVisits(ix: Indexer, env: Collaborators, fileTypes: set<string>, vs: seq<Visit>): (r: Result<Indexer, RunError>)
    ensures r.Failure? ==> !r.error.NotSetUp? && !r.error.SeenSetNull?
    ensures r.Success? ==> forall i :: 0 <= i < |vs| ==> vs[i].Candidate?
    ensures r.Success? ==> Seen(r.value.list) == Seen(ix.list) + AdmittedPaths(fileTypes, vs)
    ensures r.Success? ==> r.value.list.checkedFiles.Keys == ix.list.checkedFiles.Keys + AdmittedPaths(fileTypes, vs)
    ensures r.Success? ==> forall p :: p in ix.list.checkedFiles && p !in AdmittedPaths(fileTypes, vs)
                                       ==> r.value.list.checkedFiles[p] == ix.list.checkedFiles[p]
    ensures r.Success? ==> SameConfig(ix, r.value) && ix.writes <= r.value.writes && ix.log <= r.value.log
    ensures r.Success? ==> forall i :: |ix.writes| <= i < |r.value.writes| ==> !r.value.writes[i].DeleteDocuments?
    ensures r.Success? ==> r.value.counter == ix.counter + (|r.value.writes| - |ix.writes|)
    ensures r.Success? && Consistent(ix) ==> Consistent(r.value)
    decreases |vs|
  {
    if |vs| == 0 then Success(ix)
    else match vs[0]
      case Unlisted(p) => Failure(UnlistableDirectory(p))
      case Candidate(f) =>
        if Admitted(fileTypes, f) then
          match IndexFile(ix, env, f)
          case Failure(e) => Failure(e)
          case Success(next) =>
            IndexFileStep(ix, env, f);
            IndexVisits(next, env, fileTypes, vs[1..])
        else IndexVisits(ix, env, fileTypes, vs[1..])
  }

  /** `indexDir(dir, filter)`: the walk over the steps of `dir`'s tree. */
  function IndexDir(ix: Indexer, env: Collaborators, fileTypes: set<string>, dir: Node): (r: Result<Indexer, RunError>)
    ensures !(dir.Dir? && dir.listable) ==> r == Failure(UnlistableDirectory(NodePath(dir)))
    ensures r.Success? ==> r.value.list.checkedFiles.Keys == ix.list.checkedFiles.Keys + AdmittedPaths(fileTypes, DirVisits(dir))
    ensures r.Success? ==> Seen(r.value.list) == Seen(ix.list) + AdmittedPaths(fileTypes, DirVisits(dir))
  {
    IndexVisits(ix, env, fileTypes, DirVisits(dir))
  }

  // ---------------------------------------------------------------- deletions

  /** Distinct elements. */
  predicate NoDuplicates(order: seq<Path>) {
    forall i, j :: 0 <= i < j < |order| ==> order[i] != order[j]
  }

  /**
   * The iteration order of a `HashMap` key set: some fixed order of its
   * elements, each once, which the model leaves unspecified.
   */
  ghost function Enumerate(s: set<Path>): (order: seq<Path>)
    ensures |order| == |s| && NoDuplicates(order)
    ensures forall p :: p in order <==> p in s
    decreases s
  {
    if s == {} then []
    else
      var p :| p in s;
      [p] + Enumerate(s - {p})
  }

  /** One `deleteDocuments` per path, in order. */
  function Deletes(order: seq<Path>): (ws: seq<Write>)
    ensures |ws| == |order|
    ensures forall i :: 0 <= i < |ws| ==> ws[i] == DeleteDocuments(order[i])
  {
    seq(|order|, i requires 0 <= i < |order| => DeleteDocuments(order[i]))
  }

  /**
   * One "<path> REMOVED" announcement per path, in order: the block for the
   * `k`-th path holds one event per listener, in registration order.
   */
  function RemovalEvents(listeners: seq<ListenerId>, order: seq<Path>): (es: seq<Event>)
    ensures |es| == |order| * |listeners|
    ensures forall k, i :: 0 <= k < |order| && 0 <= i < |listeners| ==>
              BlockIndex(k, |listeners|, i) < |es| && es[BlockIndex(k, |listeners|, i)] == Event(OnIndex, listeners[i], order[k] + " REMOVED")
    decreases |order|
  {
    if |order| == 0 then []
    else
      var rest := RemovalEvents(listeners, order[1..]);
      RemovalBlocksCons(listeners, order, rest);
      Notify(listeners, OnIndex, order[0] + " REMOVED") + rest
  }

  /** Prepending the first path's block to the blocks of the other paths gives the blocks of all paths. */
  lemma RemovalBlocksCons(listeners: seq<ListenerId>, order: seq<Path>, rest: seq<Event>)
    requires |order| > 0 && |rest| == (|order| - 1) * |listeners|
    requires forall k, i :: 0 <= k < |order[1..]| && 0 <= i < |listeners| ==>
               BlockIndex(k, |listeners|, i) < |rest| && rest[BlockIndex(k, |listeners|, i)] == Event(OnIndex, listeners[i], order[1..][k] + " REMOVED")
    ensures var es := Notify(listeners, OnIndex, order[0] + " REMOVED") + rest;
            && |es| == |order| * |listeners|
            && forall k, i :: 0 <= k < |order| && 0 <= i < |listeners| ==>
                 BlockIndex(k, |listeners|, i) < |es| && es[BlockIndex(k, |listeners|, i)] == Event(OnIndex, listeners[i], order[k] + " REMOVED")
  {
    var n := |listeners|;
    var first := Notify(listeners, OnIndex, order[0] + " REMOVED");
    var es := first + rest;
    assert |es| == |order| * n by {
      assert (|order| - 1) * n + n == |order| * n;
    }
    forall k, i | 0 <= k < |order| && 0 <= i < n
      ensures BlockIndex(k, n, i) < |es| && es[BlockIndex(k, n, i)] == Event(OnIndex, listeners[i], order[k] + " REMOVED")
    {
      if k == 0 {
        assert BlockIndex(0, n, i) == i;
      } else {
        BlockIndexStep(n, k - 1, i);
        assert order[1..][k - 1] == order[k];
      }
    }
  }

  /** Position of the `i`-th event of the `k`-th block of `n` events. */
  function BlockIndex(k: nat, n: nat, i: nat): nat {
    k * n + i
  }

  /** Block `k + 1` starts `n` after block `k`. */
  lemma BlockIndexStep(n: nat, k: nat, i: nat)
    ensures BlockIndex(k + 1, n, i) == n + BlockIndex(k, n, i)
  {
  }


  /**
   * The loop over the removed paths: delete each path's documents, forget it
   * in the ledger and announce "<path> REMOVED". The counter is not touched.
   */
  function Reconcile(ix: Indexer, order: seq<Path>): (r: Indexer)
    ensures forall p :: p in r.index <==> p in ix.index && p !in order
    ensures forall p :: p in r.index ==> r.index[p] == ix.index[p]
    ensures forall p :: p in r.list.checkedFiles <==> p in ix.list.checkedFiles && p !in order
    ensures forall p :: p in r.list.checkedFiles ==> r.list.checkedFiles[p] == ix.list.checkedFiles[p]
    ensures r.list.controllList == ix.list.controllList
    ensures r.writes == ix.writes + Deletes(order)
    ensures r.log == ix.log + RemovalEvents(ix.onIndex, order)
    ensures SameConfig(ix, r) && r.counter == ix.counter
    ensures Consistent(ix) ==> Consistent(r)
    decreases |order|
  {
    if |order| == 0 then
      assert Deletes(order) == [];
      ix
    else
      var p := order[0];
      var deleted := Send(ix, DeleteDocuments(p)).(list := Forget(ix.list, p));
      var r := Reconcile(CallOnIndex(deleted, p + " REMOVED"), order[1..]);
      assert Deletes(order) == [DeleteDocuments(p)] + Deletes(order[1..]);
      r
  }

  // ---------------------------------------------------------------- a run

  /** The writes from `from` on are first adds and updates, then, from `k` on, only deletions. */
  ghost predicate DeletesLast(ws: seq<Write>, from: nat, k: nat) {
    && from <= k <= |ws|
    && (forall i :: from <= i < k ==> !ws[i].DeleteDocuments?)
    && (forall i :: k <= i < |ws| ==> ws[i].DeleteDocuments?)
  }

  /**
   * `Index`: refuse to run unless set up; walk the tree; then, for every path
   * the ledger knows but did not see, delete it; tell the finish listeners
   * how many files were added or updated; reset the counter.
   */
  ghost function Index(ix: Indexer, env: Collaborators, root: Node, fileTypes: set<string>): (r: Result<Indexer, RunError>)
    ensures r == Failure(NotSetUp) <==> !ix.setup
    ensures r.Success? ==> r.value.counter == 0 && SameConfig(ix, r.value)
    ensures r.Success? ==> r.value.list.checkedFiles.Keys
                           == (ix.list.checkedFiles.Keys * Seen(ix.list)) + AdmittedPaths(fileTypes, DirVisits(root))
    ensures r.Success? ==> Seen(r.value.list) == Seen(ix.list) + AdmittedPaths(fileTypes, DirVisits(root))
    ensures r.Success? && Consistent(ix) ==> Consistent(r.value)
    ensures r.Success? ==> ix.log <= r.value.log && |r.value.log| >= |ix.log| + |ix.onFinish| && ix.writes <= r.value.writes
    ensures r.Success? ==>
              forall p :: DeleteDocuments(p) in r.value.writes[|ix.writes|..]
                          <==> p in ix.list.checkedFiles && p !in Seen(ix.list) && p !in AdmittedPaths(fileTypes, DirVisits(root))
    ensures r.Success? ==>
              forall p, l :: p in ix.list.checkedFiles && p !in Seen(ix.list) && p !in AdmittedPaths(fileTypes, DirVisits(root)) && l in ix.onIndex
                             ==> Event(OnIndex, l, p + " REMOVED") in r.value.log
    ensures r.Success? ==>
              exists k: nat :: DeletesLast(r.value.writes, |ix.writes|, k)
                          && r.value.log[|r.value.log| - |ix.onFinish|..]
                             == Notify(ix.onFinish, OnFinish, IntToString(ix.counter + (k - |ix.writes|), 10))
  {
    if !ix.setup then Failure(NotSetUp)
    else match IndexVisits(ix, env, fileTypes, DirVisits(root))
      case Failure(e) => Failure(e)
      case Success(walked) =>
        var order := Enumerate(GetDifference(walked.list));
        var reconciled := Reconcile(walked, order);
        var finished := CallOnFinish(reconciled, IntToString(reconciled.counter, 10));
        var r := finished.(counter := 0);
        var admitted := AdmittedPaths(fileTypes, DirVisits(root));
        FinishLedger(ix, admitted, walked, order, r);
        FinishWrites(ix, admitted, walked, order, r);
        FinishLog(ix, admitted, walked, order, r);
        Success(r)
  }

  /**
   * `Index` as written: it asks the ledger for its difference with
   * `GetDifference` as `CheckedList.java` has it, which throws when the walk checked
   * no file of a deserialized ledger. Apart from that crash it is `Index`.
   */
  ghost function IndexAsWritten(ix: Indexer, env: Collaborators, root: Node, fileTypes: set<string>): (r: Result<Indexer, RunError>)
    ensures r == Failure(SeenSetNull) <==> && ix.setup && IndexVisits(ix, env, fileTypes, DirVisits(root)).Success?
                                           && ix.list.controllList.None? && AdmittedPaths(fileTypes, DirVisits(root)) == {}
    ensures r != Failure(SeenSetNull) ==> r == Index(ix, env, root, fileTypes)
  {
    if !ix.setup then Failure(NotSetUp)
    else match IndexVisits(ix, env, fileTypes, DirVisits(root))
      case Failure(e) => Failure(e)
      case Success(walked) =>
        WalkSeenSetNull(ix, env, fileTypes, DirVisits(root));
        match GetDifferenceAsWritten(walked.list)
        case Failure(_) => Failure(SeenSetNull)
        case Success(removed) =>
          GetDifferenceAgrees(walked.list);
          var order := Enumerate(removed);
          var reconciled := Reconcile(walked, order);
          var finished := CallOnFinish(reconciled, IntToString(reconciled.counter, 10));
          Success(finished.(counter := 0))
  }

  /**
   * After a walk the seen set is still null exactly when it was null before
   * and the walk admitted no file, since every admitted file is checked.
   */
  lemma {:induction false} WalkSeenSetNull(ix: Indexer, env: Collaborators, fileTypes: set<string>, vs: seq<Visit>)
    requires IndexVisits(ix, env, fileTypes, vs).Success?
    ensures IndexVisits(ix, env, fileTypes, vs).value.list.controllList.None?
            <==> ix.list.controllList.None? && AdmittedPaths(fileTypes, vs) == {}
    decreases |vs|
  {
    if |vs| > 0 {
      var f := vs[0].file;
      if Admitted(fileTypes, f) {
        IndexFileStep(ix, env, f);
        WalkSeenSetNull(IndexFile(ix, env, f).value, env, fileTypes, vs[1..]);
        assert f.path in AdmittedPaths(fileTypes, vs);
      } else {
        WalkSeenSetNull(ix, env, fileTypes, vs[1..]);
      }
    }
  }

  /** After a completed run the ledger holds the paths seen before or admitted now, and agrees with the index. */
  lemma FinishLedger(ix: Indexer, admitted: set<Path>, walked: Indexer, order: seq<Path>, r: Indexer)
    requires Seen(walked.list) == Seen(ix.list) + admitted
    requires walked.list.checkedFiles.Keys == ix.list.checkedFiles.Keys + admitted
    requires Consistent(ix) ==> Consistent(walked)
    requires forall p :: p in order <==> p in GetDifference(walked.list)
    requires r == CallOnFinish(Reconcile(walked, order), IntToString(walked.counter, 10)).(counter := 0)
    ensures r.list.checkedFiles.Keys == (ix.list.checkedFiles.Keys * Seen(ix.list)) + admitted
    ensures Seen(r.list) == Seen(ix.list) + admitted
    ensures Consistent(ix) ==> Consistent(r)
  {
    var reconciled := Reconcile(walked, order);
    LedgerAfterRemovals(ix, walked, order, reconciled, admitted);
    assert r.list == reconciled.list && r.index == reconciled.index;
  }

  /** A completed run deletes, after all its adds and updates, exactly the known paths neither seen nor admitted. */
  lemma FinishWrites(ix: Indexer, admitted: set<Path>, walked: Indexer, order: seq<Path>, r: Indexer)
    requires Seen(walked.list) == Seen(ix.list) + admitted
    requires walked.list.checkedFiles.Keys == ix.list.checkedFiles.Keys + admitted
    requires ix.writes <= walked.writes
    requires forall i :: |ix.writes| <= i < |walked.writes| ==> !walked.writes[i].DeleteDocuments?
    requires forall p :: p in order <==> p in GetDifference(walked.list)
    requires r == CallOnFinish(Reconcile(walked, order), IntToString(walked.counter, 10)).(counter := 0)
    ensures DeletesLast(r.writes, |ix.writes|, |walked.writes|) && ix.writes <= r.writes
    ensures forall p :: DeleteDocuments(p) in r.writes[|ix.writes|..]
                        <==> p in ix.list.checkedFiles && p !in Seen(ix.list) && p !in admitted
  {
    var reconciled := Reconcile(walked, order);
    WritesAfterRemovals(ix, walked, order, reconciled);
    DeletedExactlyUnseen(ix, walked, order, reconciled, admitted);
    assert r.writes == reconciled.writes;
  }

  /**
   * A completed run announces every removed path to every onIndex listener,
   * then tells the finish listeners the walk's count and resets the counter.
   */
  lemma FinishLog(ix: Indexer, admitted: set<Path>, walked: Indexer, order: seq<Path>, r: Indexer)
    requires SameConfig(ix, walked) && ix.log <= walked.log
    requires walked.counter == ix.counter + (|walked.writes| - |ix.writes|)
    requires forall p :: p in order <==> p in GetDifference(walked.list)
    requires Seen(walked.list) == Seen(ix.list) + admitted
    requires walked.list.checkedFiles.Keys == ix.list.checkedFiles.Keys + admitted
    requires r == CallOnFinish(Reconcile(walked, order), IntToString(walked.counter, 10)).(counter := 0)
    ensures r.counter == 0 && SameConfig(ix, r)
    ensures ix.log <= r.log && |r.log| >= |ix.log| + |ix.onFinish|
    ensures forall p, l :: p in ix.list.checkedFiles && p !in Seen(ix.list) && p !in admitted && l in ix.onIndex
                           ==> Event(OnIndex, l, p + " REMOVED") in r.log
    ensures r.log[|r.log| - |ix.onFinish|..] == Notify(ix.onFinish, OnFinish, IntToString(ix.counter + (|walked.writes| - |ix.writes|), 10))
  {
    var reconciled := Reconcile(walked, order);
    RemovalsAnnounced(ix, walked, order, reconciled);
    LogAfterFinish(ix, reconciled, walked.counter);
    forall p, l | p in ix.list.checkedFiles && p !in Seen(ix.list) && p !in admitted && l in ix.onIndex
      ensures Event(OnIndex, l, p + " REMOVED") in r.log
    {
      assert p in order;
      assert reconciled.log <= r.log;
    }
  }

  /** The removal loop leaves the ledger with the paths seen before or admitted now. */
  lemma LedgerAfterRemovals(ix: Indexer, walked: Indexer, order: seq<Path>, reconciled: Indexer, admitted: set<Path>)
    requires Seen(walked.list) == Seen(ix.list) + admitted
    requires walked.list.checkedFiles.Keys == ix.list.checkedFiles.Keys + admitted
    requires Consistent(ix) ==> Consistent(walked)
    requires forall p :: p in order <==> p in GetDifference(walked.list)
    requires reconciled == Reconcile(walked, order)
    ensures reconciled.list.checkedFiles.Keys == (ix.list.checkedFiles.Keys * Seen(ix.list)) + admitted
    ensures Seen(reconciled.list) == Seen(ix.list) + admitted
    ensures Consistent(ix) ==> Consistent(reconciled)
  {
    KeysAfterRemovals(ix.list, walked.list, order, reconciled.list, admitted);
  }

  /** Forgetting the unseen paths keeps exactly the paths seen before the walk or admitted by it. */
  lemma KeysAfterRemovals(before: CheckedList, walked: CheckedList, order: seq<Path>, after: CheckedList, admitted: set<Path>)
    requires Seen(walked) == Seen(before) + admitted
    requires walked.checkedFiles.Keys == before.checkedFiles.Keys + admitted
    requires forall p :: p in order <==> p in GetDifference(walked)
    requires forall p :: p in after.checkedFiles <==> p in walked.checkedFiles && p !in order
    ensures after.checkedFiles.Keys == (before.checkedFiles.Keys * Seen(before)) + admitted
  {
    forall p
      ensures p in after.checkedFiles <==> p in (before.checkedFiles.Keys * Seen(before)) + admitted
    {
      assert p in order <==> p in walked.checkedFiles && p !in Seen(walked);
    }
  }

  /** The removal loop appends only deletions after the walk's adds and updates. */
  lemma WritesAfterRemovals(ix: Indexer, walked: Indexer, order: seq<Path>, reconciled: Indexer)
    requires ix.writes <= walked.writes
    requires forall i :: |ix.writes| <= i < |walked.writes| ==> !walked.writes[i].DeleteDocuments?
    requires reconciled == Reconcile(walked, order)
    ensures DeletesLast(reconciled.writes, |ix.writes|, |walked.writes|)
    ensures ix.writes <= reconciled.writes
  {
    assert reconciled.writes == walked.writes + Deletes(order);
  }

  /** A path is deleted in this run iff the ledger knew it and it was neither seen before nor admitted now. */
  lemma DeletedExactlyUnseen(ix: Indexer, walked: Indexer, order: seq<Path>, reconciled: Indexer, admitted: set<Path>)
    requires Seen(walked.list) == Seen(ix.list) + admitted
    requires walked.list.checkedFiles.Keys == ix.list.checkedFiles.Keys + admitted
    requires ix.writes <= walked.writes
    requires forall i :: |ix.writes| <= i < |walked.writes| ==> !walked.writes[i].DeleteDocuments?
    requires forall p :: p in order <==> p in GetDifference(walked.list)
    requires reconciled.writes == walked.writes + Deletes(order)
    ensures forall p :: DeleteDocuments(p) in reconciled.writes[|ix.writes|..]
                        <==> p in ix.list.checkedFiles && p !in Seen(ix.list) && p !in admitted
  {
    assert reconciled.writes[|ix.writes|..] == walked.writes[|ix.writes|..] + Deletes(order);
    forall p
      ensures DeleteDocuments(p) in reconciled.writes[|ix.writes|..] <==> p in order
    {
      if p in order {
        var i :| 0 <= i < |order| && order[i] == p;
        assert Deletes(order)[i] == DeleteDocuments(p);
      }
    }
  }

  /** Every path the removal loop handles is announced to every onIndex listener. */
  lemma RemovalsAnnounced(ix: Indexer, walked: Indexer, order: seq<Path>, reconciled: Indexer)
    requires SameConfig(ix, walked)
    requires reconciled.log == walked.log + RemovalEvents(walked.onIndex, order)
    ensures forall p, l :: p in order && l in ix.onIndex ==> Event(OnIndex, l, p + " REMOVED") in reconciled.log
  {
    forall p, l | p in order && l in ix.onIndex
      ensures Event(OnIndex, l, p + " REMOVED") in reconciled.log
    {
      RemovalAnnounced(walked.onIndex, order, p, l);
    }
  }

  /** The finish call appends one event per finish listener, carrying the count, and the counter is reset. */
  lemma LogAfterFinish(ix: Indexer, reconciled: Indexer, count: nat)
    requires SameConfig(ix, reconciled) && ix.log <= reconciled.log
    ensures var r := CallOnFinish(reconciled, IntToString(count, 10)).(counter := 0);
            && r.counter == 0 && SameConfig(ix, r)
            && reconciled.log <= r.log && |r.log| >= |ix.log| + |ix.onFinish|
            && r.log[|r.log| - |ix.onFinish|..] == Notify(ix.onFinish, OnFinish, IntToString(count, 10))
  {
    var r := CallOnFinish(reconciled, IntToString(count, 10)).(counter := 0);
    assert r.log == reconciled.log + Notify(ix.onFinish, OnFinish, IntToString(count, 10));
  }

  /** Every listener hears of every removed path. */
  lemma {:induction false} RemovalAnnounced(listeners: seq<ListenerId>, order: seq<Path>, p: Path, l: ListenerId)
    requires p in order && l in listeners
    ensures Event(OnIndex, l, p + " REMOVED") in RemovalEvents(listeners, order)
    decreases |order|
  {
    if order[0] != p {
      RemovalAnnounced(listeners, order[1..], p, l);
    } else {
      var i :| 0 <= i < |listeners| && listeners[i] == l;
      assert Notify(listeners, OnIndex, p + " REMOVED")[i] == Event(OnIndex, l, p + " REMOVED");
    }
  }
}
=== FILE: IndexerRuns.dfy ===
/**
 * Whole indexing runs as the program performs them once per process: load
 * the ledger saved by the previous run (or start empty), set the indexer up
 * on the index directory, register the console listeners and the HTML
 * extractor, index the document tree, close, and save the ledger. The lemmas
 * relate consecutive runs.
 */
module IndexerRuns {
  import opened Wrappers
  import opened Text
  import opened Numerals
  import opened FileTree
  import opened CheckedList
  import opened IndexFileFilter
  import opened Indexer

  /** What outlives a process: the documents in the index directory and `checked.dat`, if it could be read. */
  datatype Stored = Stored(index: map<Path, Document>, ledger: Option<map<Path, Hash>>)

  /** A completed run: what it leaves on disk, what its listeners heard, what it sent to the writer. */
  datatype Outcome = Outcome(stored: Stored, log: seq<Event>, writes: seq<Write>)

  const HtmlExtractor: ExtractorId := "HTMLIndexer"
  const PlainExtractor: ExtractorId := "PlainIndexer"
  const IndexedFileListener: ListenerId := 0
  const FinishedIndexingListener: ListenerId := 1

  /** The saved ledger, or a fresh one when `checked.dat` is missing or unreadable. */
  function Load(stored: Stored): (l: CheckedList)
    ensures Seen(l) == {}
    ensures l.checkedFiles == stored.ledger.GetOr(map[])
  {
    match stored.ledger
    case None => Fresh()
    case Some(saved) => Deserialize(saved)
  }

  /** The indexer as the program configures it before calling `Index`. */
  function Prepare(stored: Stored): (ix: Indexer)
    ensures ix.setup && ix.counter == 0 && ix.writes == [] && ix.log == []
    ensures ix.list == Load(stored) && ix.index == stored.index
    ensures ix.onIndex == [IndexedFileListener] && ix.onFinish == [FinishedIndexingListener]
    ensures ix.registry == [Registration(".htm", HtmlExtractor), Registration(".html", HtmlExtractor)]
  {
    var ix := SetUp(Create(), stored.index, Load(stored), PlainExtractor);
    var ix := AddOnFinish(AddOnIndex(ix, IndexedFileListener), FinishedIndexingListener);
    assert Lower(".htm") == ".htm" && Lower(".html") == ".html";
    AddFileIndexer(AddFileIndexer(ix, ".htm", HtmlExtractor), ".html", HtmlExtractor)
  }

  /**
   * One process's indexing run. It completes exactly when `Index` does, fails
   * with `Index`'s error otherwise, and a completed run saves a ledger that
   * knows exactly the admitted files of the tree.
   */
  ghost function Run(stored: Stored, env: Collaborators, root: Node, fileTypes: set<string>): (r: Result<Outcome, RunError>)
    ensures r.Success? <==> Index(Prepare(stored), env, root, fileTypes).Success?
    ensures r.Failure? ==> r.error == Index(Prepare(stored), env, root, fileTypes).error
    ensures r.Success? ==> r.value.stored.ledger.Some? && r.value.stored.ledger.value.Keys == AdmittedPaths(fileTypes, DirVisits(root))
  {
    match Index(Prepare(stored), env, root, fileTypes)
    case Failure(e) => Failure(e)
    case Success(ix) =>
      IndexKnowsExactlyAdmitted(Prepare(stored), env, root, fileTypes);
      var closed := Close(ix);
      Success(Outcome(Stored(closed.index, Some(Serialize(closed.list))), closed.log, closed.writes))
  }

  /**
   * The run with `Index` as written: a run from a saved ledger that admits
   * no file crashes in `GetDifference`; apart from that it is `Run`.
   */
  ghost function RunAsWritten(stored: Stored, env: Collaborators, root: Node, fileTypes: set<string>): (r: Result<Outcome, RunError>)
    ensures r == Failure(SeenSetNull) <==> && stored.ledger.Some?
                                           && IndexVisits(Prepare(stored), env, fileTypes, DirVisits(root)).Success?
                                           && AdmittedPaths(fileTypes, DirVisits(root)) == {}
    ensures r != Failure(SeenSetNull) ==> r == Run(stored, env, root, fileTypes)
  {
    match IndexAsWritten(Prepare(stored), env, root, fileTypes)
    case Failure(e) => Failure(e)
    case Success(ix) =>
      var closed := Close(ix);
      Success(Outcome(Stored(closed.index, Some(Serialize(closed.list))), closed.log, closed.writes))
  }

  /** A completed run is a completed `Index` whose indexer is then closed and its ledger saved. */
  lemma RunOutcome(stored: Stored, env: Collaborators, root: Node, fileTypes: set<string>)
    ensures var r := Index(Prepare(stored), env, root, fileTypes);
            && (Run(stored, env, root, fileTypes).Success? <==> r.Success?)
            && (r.Success? ==> Run(stored, env, root, fileTypes).value
                               == Outcome(Stored(r.value.index, Some(r.value.list.checkedFiles)), r.value.log, r.value.writes))
  {
  }

  /** The index holds one document per ledger entry, each under its own path. */
  ghost predicate StoredConsistent(s: Stored) {
    && s.index.Keys == s.ledger.GetOr(map[]).Keys
    && forall p :: p in s.index ==> s.index[p].path == p
  }

  /**
   * After a completed run the ledger knows exactly the admitted files of the
   * tree, whatever it knew before; an index that agreed with the ledger
   * still agrees.
   */
  lemma RunKnowsExactlyAdmitted(stored: Stored, env: Collaborators, root: Node, fileTypes: set<string>)
    requires Run(stored, env, root, fileTypes).Success?
    ensures var o := Run(stored, env, root, fileTypes).value;
            && o.stored.ledger.Some?
            && o.stored.ledger.value.Keys == AdmittedPaths(fileTypes, DirVisits(root))
            && (StoredConsistent(stored) ==> StoredConsistent(o.stored))
  {
    var ix := Prepare(stored);
    RunOutcome(stored, env, root, fileTypes);
    IndexKnowsExactlyAdmitted(ix, env, root, fileTypes);
    assert StoredConsistent(stored) ==> Consistent(ix);
  }

  /** From a ledger that has seen nothing, a completed `Index` knows exactly the admitted files. */
  lemma IndexKnowsExactlyAdmitted(ix: Indexer, env: Collaborators, root: Node, fileTypes: set<string>)
    requires Index(ix, env, root, fileTypes).Success? && Seen(ix.list) == {}
    ensures var r := Index(ix, env, root, fileTypes).value;
            && r.list.checkedFiles.Keys == AdmittedPaths(fileTypes, DirVisits(root))
            && (Consistent(ix) ==> Consistent(r))
  {
  }

  /**
   * A file the saved ledger knows but this run does not admit (deleted,
   * renamed, no longer readable, or no longer of an accepted type) is
   * deleted from the index by its path, forgotten by the ledger and
   * announced as "<path> REMOVED".
   */
  lemma VanishedFileRemoved(stored: Stored, env: Collaborators, root: Node, fileTypes: set<string>, p: Path)
    requires Run(stored, env, root, fileTypes).Success?
    requires stored.ledger.Some? && p in stored.ledger.value
    requires p !in AdmittedPaths(fileTypes, DirVisits(root))
    ensures var o := Run(stored, env, root, fileTypes).value;
            && DeleteDocuments(p) in o.writes
            && Event(OnIndex, IndexedFileListener, p + " REMOVED") in o.log
            && p !in o.stored.ledger.value
  {
    var ix := Prepare(stored);
    var r := Index(ix, env, root, fileTypes).value;
    RunOutcome(stored, env, root, fileTypes);
    assert p in ix.list.checkedFiles && p !in Seen(ix.list);
    assert DeleteDocuments(p) in r.writes[|ix.writes|..];
    assert r.writes[|ix.writes|..] == r.writes;
    assert IndexedFileListener in ix.onIndex;
  }

  /**
   * A file that exists but cannot be read is never classified or marked as
   * seen, so a previously indexed file that becomes unreadable is reported
   * removed and deleted from the index.
   */
  lemma UnreadableFileRemoved(stored: Stored, env: Collaborators, root: Node, fileTypes: set<string>, f: FileEntry)
    requires !f.readable && Candidate(f) in DirVisits(root) && UniquePaths(DirVisits(root))
    requires stored.ledger.Some? && f.path in stored.ledger.value
    requires Run(stored, env, root, fileTypes).Success?
    ensures var o := Run(stored, env, root, fileTypes).value;
            DeleteDocuments(f.path) in o.writes && f.path !in o.stored.ledger.value
  {
    var vs := DirVisits(root);
    AdmittedPathsIff(fileTypes, vs, f.path);
    VanishedFileRemoved(stored, env, root, fileTypes, f.path);
  }

  /**
   * Within one process the seen set is never cleared: a second `Index` call
   * on the same indexer does not delete a file admitted by the first call
   * that has since vanished.
   */
  lemma SecondCallKeepsVanished(ix: Indexer, env: Collaborators, first: Node, second: Node, fileTypes: set<string>, p: Path)
    requires Seen(ix.list) == {}
    requires Index(ix, env, first, fileTypes).Success?
    requires Index(Index(ix, env, first, fileTypes).value, env, second, fileTypes).Success?
    requires p in AdmittedPaths(fileTypes, DirVisits(first))
    ensures var after := Index(Index(ix, env, first, fileTypes).value, env, second, fileTypes).value;
            p in after.list.checkedFiles
  {
  }

  /** `Index` runs only between `SetUp` and `Close`. */
  lemma IndexNeedsSetUp(ix: Indexer, env: Collaborators, root: Node, fileTypes: set<string>,
                        stored: map<Path, Document>, list: CheckedList, backUp: ExtractorId)
    ensures Index(Create(), env, root, fileTypes) == Failure(NotSetUp)
    ensures Index(Close(ix), env, root, fileTypes) == Failure(NotSetUp)
    ensures Index(SetUp(ix, stored, list, backUp), env, root, fileTypes) != Failure(NotSetUp)
  {
  }

  /** Each path names one file: two steps of the walk with the same path are the same file. */
  ghost predicate UniquePaths(vs: seq<Visit>) {
    forall i, j :: 0 <= i < |vs| && 0 <= j < |vs| && vs[i].Candidate? && vs[j].Candidate? && vs[i].file.path == vs[j].file.path
                   ==> vs[i] == vs[j]
  }

  /** The ledger holds the current hash of every admitted file of the walk. */
  ghost predicate UpToDate(list: CheckedList, env: Collaborators, fileTypes: set<string>, vs: seq<Visit>) {
    forall i :: 0 <= i < |vs| && vs[i].Candidate? && Admitted(fileTypes, vs[i].file) ==>
      && vs[i].file.content.Some?
      && vs[i].file.path in list.checkedFiles
      && list.checkedFiles[vs[i].file.path] == FileHash(env, vs[i].file.content.value)
  }

  /** A completed walk leaves the ledger up to date with every file it admitted. */
  lemma {:induction false} WalkRecordsHashes(ix: Indexer, env: Collaborators, fileTypes: set<string>, vs: seq<Visit>)
    requires IndexVisits(ix, env, fileTypes, vs).Success?
    requires UniquePaths(vs)
    ensures UpToDate(IndexVisits(ix, env, fileTypes, vs).value.list, env, fileTypes, vs)
    decreases |vs|
  {
    if |vs| > 0 {
      var r := IndexVisits(ix, env, fileTypes, vs).value;
      var f := vs[0].file;
      var next := if Admitted(fileTypes, f) then IndexFile(ix, env, f).value else ix;
      assert IndexVisits(next, env, fileTypes, vs[1..]) == Success(r);
      assert UniquePaths(vs[1..]) by {
        forall i, j | 0 <= i < |vs[1..]| && 0 <= j < |vs[1..]|
          ensures vs[1..][i] == vs[i + 1] && vs[1..][j] == vs[j + 1]
        {
        }
      }
      WalkRecordsHashes(next, env, fileTypes, vs[1..]);
      if Admitted(fileTypes, f) {
        IndexFileStep(ix, env, f);
        FirstFileRecorded(next, r, env, fileTypes, vs);
      }
      UpToDateCons(r.list, env, fileTypes, vs);
    }
  }

  /** A ledger is up to date with a walk when it is with the walk's tail and with its first step. */
  lemma UpToDateCons(list: CheckedList, env: Collaborators, fileTypes: set<string>, vs: seq<Visit>)
    requires |vs| > 0 && UpToDate(list, env, fileTypes, vs[1..])
    requires vs[0].Candidate? && Admitted(fileTypes, vs[0].file) ==>
               && vs[0].file.content.Some?
               && vs[0].file.path in list.checkedFiles
               && list.checkedFiles[vs[0].file.path] == FileHash(env, vs[0].file.content.value)
    ensures UpToDate(list, env, fileTypes, vs)
  {
    forall i | 1 <= i < |vs| && vs[i].Candidate? && Admitted(fileTypes, vs[i].file)
      ensures vs[i].file.content.Some?
      ensures vs[i].file.path in list.checkedFiles
      ensures list.checkedFiles[vs[i].file.path] == FileHash(env, vs[i].file.content.value)
    {
      assert vs[1..][i - 1] == vs[i];
    }
  }

  /**
   * The hash the walk records for its first file survives the rest of the
   * walk: either no later step touches the path, or the later step is the
   * same file and records the same hash.
   */
  lemma FirstFileRecorded(next: Indexer, r: Indexer, env: Collaborators, fileTypes: set<string>, vs: seq<Visit>)
    requires |vs| > 0 && vs[0].Candidate? && UniquePaths(vs)
    requires vs[0].file.content.Some? && vs[0].file.path in next.list.checkedFiles
    requires next.list.checkedFiles[vs[0].file.path] == FileHash(env, vs[0].file.content.value)
    requires IndexVisits(next, env, fileTypes, vs[1..]) == Success(r)
    requires UpToDate(r.list, env, fileTypes, vs[1..])
    ensures vs[0].file.path in r.list.checkedFiles
    ensures r.list.checkedFiles[vs[0].file.path] == FileHash(env, vs[0].file.content.value)
  {
    var f := vs[0].file;
    AdmittedPathsIff(fileTypes, vs[1..], f.path);
    if f.path in AdmittedPaths(fileTypes, vs[1..]) {
      var j :| 0 <= j < |vs[1..]| && vs[1..][j].Candidate? && Admitted(fileTypes, vs[1..][j].file) && vs[1..][j].file.path == f.path;
      assert vs[j + 1] == vs[1..][j];
    }
  }

  /** A walk over files the ledger already knows with their current hashes only marks them seen. */
  lemma {:induction false} QuietWalk(ix: Indexer, env: Collaborators, fileTypes: set<string>, vs: seq<Visit>)
    requires forall i :: 0 <= i < |vs| ==> vs[i].Candidate?
    requires UpToDate(ix.list, env, fileTypes, vs)
    ensures IndexVisits(ix, env, fileTypes, vs).Success?
    ensures var r := IndexVisits(ix, env, fileTypes, vs).value;
            r == ix.(list := r.list) && r.list.checkedFiles == ix.list.checkedFiles
    decreases |vs|
  {
    if |vs| > 0 {
      var f := vs[0].file;
      var next := ix;
      if Admitted(fileTypes, f) {
        var c := f.content.value;
        var checked := CheckFile(ix.list, f.path, FileHash(env, c));
        assert checked.state == Known;
        next := ix.(list := checked.list);
        assert IndexFile(ix, env, f) == Success(next);
      }
      assert UpToDate(next.list, env, fileTypes, vs[1..]) by {
        forall i | 0 <= i < |vs[1..]| ensures vs[1..][i] == vs[i + 1] {
        }
      }
      QuietWalk(next, env, fileTypes, vs[1..]);
    }
  }

  /** The ledger a completed `Index` leaves behind holds what the walk recorded, minus the removed paths. */
  lemma IndexKeepsWalkedHashes(ix: Indexer, env: Collaborators, root: Node, fileTypes: set<string>)
    requires Index(ix, env, root, fileTypes).Success?
    ensures IndexVisits(ix, env, fileTypes, DirVisits(root)).Success?
    ensures var walked := IndexVisits(ix, env, fileTypes, DirVisits(root)).value;
            var r := Index(ix, env, root, fileTypes).value;
            forall p :: p in r.list.checkedFiles ==> p in walked.list.checkedFiles && r.list.checkedFiles[p] == walked.list.checkedFiles[p]
  {
  }

  /**
   * `Index` over a tree the ledger already holds exactly, with current
   * hashes: nothing is written, nothing is removed, the ledger's map is
   * unchanged, and the finish listeners hear "0".
   */
  lemma QuietIndex(ix: Indexer, env: Collaborators, root: Node, fileTypes: set<string>)
    requires ix.setup && ix.counter == 0
    requires forall i :: 0 <= i < |DirVisits(root)| ==> DirVisits(root)[i].Candidate?
    requires UpToDate(ix.list, env, fileTypes, DirVisits(root))
    requires ix.list.checkedFiles.Keys == AdmittedPaths(fileTypes, DirVisits(root))
    ensures Index(ix, env, root, fileTypes).Success?
    ensures var r := Index(ix, env, root, fileTypes).value;
            && r == ix.(list := r.list, log := ix.log + Notify(ix.onFinish, OnFinish, "0"))
            && r.list.checkedFiles == ix.list.checkedFiles
  {
    var vs := DirVisits(root);
    QuietWalk(ix, env, fileTypes, vs);
    var walked := IndexVisits(ix, env, fileTypes, vs).value;
    assert GetDifference(walked.list) == {};
    var order := Enumerate(GetDifference(walked.list));
    assert order == [];
    assert Reconcile(walked, order) == walked;
    assert IntToString(0, 10) == "0" by {
      assert ToDigits(0, 10) == [0];
    }
  }

  /** The ledger a completed run saves holds the current hash of exactly the admitted files. */
  lemma RunLeavesLedgerUpToDate(stored: Stored, env: Collaborators, root: Node, fileTypes: set<string>)
    requires Run(stored, env, root, fileTypes).Success?
    requires UniquePaths(DirVisits(root))
    ensures var saved := Run(stored, env, root, fileTypes).value.stored;
            && saved.ledger.Some?
            && saved.ledger.value.Keys == AdmittedPaths(fileTypes, DirVisits(root))
            && UpToDate(Load(saved), env, fileTypes, DirVisits(root))
  {
    var ix := Prepare(stored);
    RunOutcome(stored, env, root, fileTypes);
    IndexLeavesLedgerUpToDate(ix, env, root, fileTypes);
    var saved := Run(stored, env, root, fileTypes).value.stored;
    assert Load(saved).checkedFiles == Index(ix, env, root, fileTypes).value.list.checkedFiles;
  }

  /** From a ledger that has seen nothing, a completed `Index` holds the current hash of exactly the admitted files. */
  lemma IndexLeavesLedgerUpToDate(ix: Indexer, env: Collaborators, root: Node, fileTypes: set<string>)
    requires Index(ix, env, root, fileTypes).Success? && Seen(ix.list) == {}
    requires UniquePaths(DirVisits(root))
    ensures var r := Index(ix, env, root, fileTypes).value;
            && r.list.checkedFiles.Keys == AdmittedPaths(fileTypes, DirVisits(root))
            && UpToDate(r.list, env, fileTypes, DirVisits(root))
  {
    var vs := DirVisits(root);
    IndexKeepsWalkedHashes(ix, env, root, fileTypes);
    WalkRecordsHashes(ix, env, fileTypes, vs);
    var r := Index(ix, env, root, fileTypes).value;
    var walked := IndexVisits(ix, env, fileTypes, vs).value;
    assert r.list.checkedFiles.Keys == AdmittedPaths(fileTypes, vs);
    forall i | 0 <= i < |vs| && vs[i].Candidate? && Admitted(fileTypes, vs[i].file)
      ensures vs[i].file.content.Some?
      ensures vs[i].file.path in r.list.checkedFiles
      ensures r.list.checkedFiles[vs[i].file.path] == FileHash(env, vs[i].file.content.value)
    {
      AdmittedPathsIff(fileTypes, vs, vs[i].file.path);
      assert vs[i].file.path in r.list.checkedFiles;
      assert r.list.checkedFiles[vs[i].file.path] == walked.list.checkedFiles[vs[i].file.path];
    }
  }

  /**
   * Running twice over an unchanged tree: the second run sends nothing to
   * the writer, leaves index and ledger as the first run left them, and its
   * only event tells the finish listener that 0 files were indexed.
   */
  lemma RerunIsQuiet(stored: Stored, env: Collaborators, root: Node, fileTypes: set<string>)
    requires Run(stored, env, root, fileTypes).Success?
    requires UniquePaths(DirVisits(root))
    ensures var first := Run(stored, env, root, fileTypes).value;
            Run(first.stored, env, root, fileTypes)
            == Success(Outcome(first.stored, [Event(OnFinish, FinishedIndexingListener, "0")], []))
  {
    RunLeavesLedgerUpToDate(stored, env, root, fileTypes);
    RunWalksOnlyFiles(stored, env, root, fileTypes);
    QuietRun(Run(stored, env, root, fileTypes).value.stored, env, root, fileTypes);
  }

  /**
   * As written, the run after a completed run over a tree with no admitted
   * file (an empty directory, say) crashes: the saved ledger is loaded with a
   * null seen set, the walk checks no file, and `GetDifference` throws.
   */
  lemma RerunCrashesWithNothingAdmitted(stored: Stored, env: Collaborators, root: Node, fileTypes: set<string>)
    requires Run(stored, env, root, fileTypes).Success?
    requires AdmittedPaths(fileTypes, DirVisits(root)) == {}
    ensures RunAsWritten(Run(stored, env, root, fileTypes).value.stored, env, root, fileTypes) == Failure(SeenSetNull)
  {
    var saved := Run(stored, env, root, fileTypes).value.stored;
    var vs := DirVisits(root);
    RunWalksOnlyFiles(stored, env, root, fileTypes);
    forall i | 0 <= i < |vs| && vs[i].Candidate? && Admitted(fileTypes, vs[i].file)
      ensures false
    {
      AdmittedPathsIff(fileTypes, vs, vs[i].file.path);
    }
    QuietWalk(Prepare(saved), env, fileTypes, vs);
  }

  /** The smallest instance: an empty document directory and no saved ledger; the first run completes, the second crashes. */
  lemma EmptyDirectoryRerunCrashes(env: Collaborators, fileTypes: set<string>)
    ensures var root := Dir("docs", "docs", true, []);
            && Run(Stored(map[], None), env, root, fileTypes).Success?
            && RunAsWritten(Run(Stored(map[], None), env, root, fileTypes).value.stored, env, root, fileTypes) == Failure(SeenSetNull)
  {
    var root := Dir("docs", "docs", true, []);
    assert DirVisits(root) == [];
    assert IndexVisits(Prepare(Stored(map[], None)), env, fileTypes, []).Success?;
    RerunCrashesWithNothingAdmitted(Stored(map[], None), env, root, fileTypes);
  }

  /** When the tree admits at least one file, the quiet second run holds of the run as written too. */
  lemma RerunIsQuietAsWritten(stored: Stored, env: Collaborators, root: Node, fileTypes: set<string>)
    requires Run(stored, env, root, fileTypes).Success?
    requires UniquePaths(DirVisits(root))
    requires AdmittedPaths(fileTypes, DirVisits(root)) != {}
    ensures var first := Run(stored, env, root, fileTypes).value;
            RunAsWritten(first.stored, env, root, fileTypes)
            == Success(Outcome(first.stored, [Event(OnFinish, FinishedIndexingListener, "0")], []))
  {
    RerunIsQuiet(stored, env, root, fileTypes);
  }

  /** A completed run met no directory it could not list. */
  lemma RunWalksOnlyFiles(stored: Stored, env: Collaborators, root: Node, fileTypes: set<string>)
    requires Run(stored, env, root, fileTypes).Success?
    ensures forall i :: 0 <= i < |DirVisits(root)| ==> DirVisits(root)[i].Candidate?
  {
    RunOutcome(stored, env, root, fileTypes);
    IndexKeepsWalkedHashes(Prepare(stored), env, root, fileTypes);
  }

  /**
   * A run from a saved ledger that holds exactly the admitted files of an
   * unchanged tree, with current hashes, leaves what is stored as it was,
   * writes nothing and only tells the finish listener "0".
   */
  lemma QuietRun(saved: Stored, env: Collaborators, root: Node, fileTypes: set<string>)
    requires saved.ledger.Some? && saved.ledger.value.Keys == AdmittedPaths(fileTypes, DirVisits(root))
    requires UpToDate(Load(saved), env, fileTypes, DirVisits(root))
    requires forall i :: 0 <= i < |DirVisits(root)| ==> DirVisits(root)[i].Candidate?
    ensures Run(saved, env, root, fileTypes) == Success(Outcome(saved, [Event(OnFinish, FinishedIndexingListener, "0")], []))
  {
    var ix := Prepare(saved);
    QuietIndex(ix, env, root, fileTypes);
    var r := Index(ix, env, root, fileTypes).value;
    assert Notify(ix.onFinish, OnFinish, "0") == [Event(OnFinish, FinishedIndexingListener, "0")];
    assert r.index == saved.index && r.list.checkedFiles == saved.ledger.value;
    RunOutcome(saved, env, root, fileTypes);
  }
}

=== FILE: Information.dfy ===
/**
 * The run's configuration, as `Information.ApplyArgs` reads it from the
 * command line and from two settings documents: the built-in `settings.xml`
 * and an optional user file. Whether a path names a directory and what a
 * settings file parses to are inputs; printing and `System.exit` become the
 * `Exit` outcome.
 */
module Information {
  import opened Wrappers
  import opened Text
  import opened Numerals

  datatype RankingModel = VectorSpace | Okapi

  /**
   * A parsed settings document: the text of the first `number_results` and
   * the first `file_types` element, `None` where the element is missing.
   */
  datatype SettingsDoc = SettingsDoc(numberResults: Option<string>, fileTypes: Option<string>)

  datatype Information = Information(
    verbose: bool,
    documentDirectory: string,
    indexDirectory: string,
    ranking: RankingModel,
    query: string,
    resultCount: int,
    fileTypes: set<string>)

  /** Why the process ends inside `ApplyArgs`. */
  datatype ExitReason =
    | HelpRequested
    | WrongUsage
    | NotADirectory(path: string)
    | WrongRanking(arg: string)
    | SettingsUnreadable(path: string)

  datatype ArgsOutcome = Configured(info: Information) | Exit(reason: ExitReason)

  /** The status passed to `System.exit`: 0 after the help text, -1 after every error. */
  function ExitStatus(reason: ExitReason): (status: int)
    ensures status == 0 <==> reason.HelpRequested?
    ensures status != 0 ==> status == -1
  {
    if reason.HelpRequested? then 0 else -1
  }

  // ---------------------------------------------------------------- settings documents

  /** `getText`: the text of the first matching element, or "" when there is none. */
  function GetText(element: Option<string>): (text: string)
    ensures element.None? ==> text == ""
    ensures element.Some? ==> text == element.value
  {
    element.GetOr("")
  }

  /**
   * The extensions a `file_types` text names: the non-empty pieces that
   * `split(";")` returns, lower-cased, and nothing else.
   */
  function TypesIn(text: string): (ts: set<string>)
    ensures forall t :: t in ts ==> t != "" && NoUpper(t) && ';' !in t
    ensures forall t :: t in ts <==> exists piece :: piece in JavaSplit(text, ';') && piece != "" && t == Lower(piece)
  {
    var pieces := JavaSplit(text, ';');
    set piece | piece in pieces && piece != "" :: Lower(piece)
  }

  /** The extensions a settings document adds, none when there is no document. */
  function SettingsTypes(doc: Option<SettingsDoc>): (ts: set<string>)
    ensures doc.None? ==> ts == {}
    ensures doc.Some? ==> ts == TypesIn(GetText(doc.value.fileTypes))
  {
    match doc
    case None => {}
    case Some(d) => TypesIn(GetText(d.fileTypes))
  }

  /** `loadSettings`: a parsable `number_results` replaces the count; `file_types` extend the set. */
  function LoadSettings(info: Information, doc: SettingsDoc): (r: Information)
    ensures r == info.(resultCount := r.resultCount, fileTypes := r.fileTypes)
    ensures r.fileTypes == info.fileTypes + TypesIn(GetText(doc.fileTypes))
    ensures ParseInt(GetText(doc.numberResults), 10).None? ==> r.resultCount == info.resultCount
    ensures ParseInt(GetText(doc.numberResults), 10).Some? ==> r.resultCount == ParseInt(GetText(doc.numberResults), 10).value
  {
    var count := ParseInt(GetText(doc.numberResults), 10).GetOr(info.resultCount);
    info.(resultCount := count, fileTypes := info.fileTypes + TypesIn(GetText(doc.fileTypes)))
  }

  /** A document with neither element leaves the configuration as it was. */
  lemma EmptyDocumentChangesNothing(info: Information)
    ensures LoadSettings(info, SettingsDoc(None, None)) == info
  {
    assert JavaSplit("", ';') == [""];
  }

  /** A count written the way `Integer.toString` writes it is read back exactly. */
  lemma CountRoundTrip(info: Information, n: int, types: Option<string>)
    requires InInt32(n)
    ensures LoadSettings(info, SettingsDoc(Some(IntToString(n, 10)), types)).resultCount == n
  {
    ParseIntToString(n, 10);
  }

  /** Loading the same document twice is loading it once. */
  lemma LoadSettingsIdempotent(info: Information, doc: SettingsDoc)
    ensures LoadSettings(LoadSettings(info, doc), doc) == LoadSettings(info, doc)
  {
  }

  /** A text of non-empty, separator-free pieces joined by `;` names exactly those pieces, lower-cased. */
  lemma TypesOfJoin(pieces: seq<string>)
    requires forall i :: 0 <= i < |pieces| ==> pieces[i] != "" && ';' !in pieces[i]
    requires |pieces| > 0
    ensures TypesIn(Join(pieces, ';')) == set p | p in pieces :: Lower(p)
  {
    JavaSplitJoin(pieces, ';');
  }

  /**
   * A `file_types` text made of the given non-empty pieces joined by `;`
   * adds exactly those pieces, lower-cased, and removes nothing.
   */
  lemma JoinedTypesAdded(info: Information, pieces: seq<string>, count: Option<string>)
    requires forall i :: 0 <= i < |pieces| ==> pieces[i] != "" && ';' !in pieces[i]
    requires |pieces| > 0
    ensures LoadSettings(info, SettingsDoc(count, Some(Join(pieces, ';')))).fileTypes
            == info.fileTypes + (set p | p in pieces :: Lower(p))
  {
    TypesOfJoin(pieces);
  }

  /**
   * Two user extensions are added to the built-in ".txt" as they are
   * written: nothing is replaced and no dot is prepended.
   */
  lemma TwoTypesMerged(info: Information, a: string, b: string)
    requires info.fileTypes == {".txt"}
    requires a != "" && b != "" && ';' !in a && ';' !in b && NoUpper(a) && NoUpper(b)
    ensures LoadSettings(info, SettingsDoc(None, Some(a + ";" + b))).fileTypes == {".txt", a, b}
  {
    TypesOfPair(a, b);
    LowerOfNoUpper(a);
    LowerOfNoUpper(b);
  }

  /** Two non-empty, separator-free pieces joined by `;` name the two of them, lower-cased. */
  lemma TypesOfPair(a: string, b: string)
    requires a != "" && b != "" && ';' !in a && ';' !in b
    ensures TypesIn(a + ";" + b) == {Lower(a), Lower(b)}
  {
    var pieces := [a, b];
    assert Join(pieces, ';') == a + ";" + b;
    TypesOfJoin(pieces);
    assert forall p :: p in pieces <==> p == a || p == b;
  }

  /** ".txt" with "html;htm" gives ".txt", "html" and "htm". */
  lemma SettingsMergeExample(info: Information)
    requires info.fileTypes == {".txt"}
    ensures LoadSettings(info, SettingsDoc(None, Some("html;htm"))).fileTypes == {".txt", "html", "htm"}
  {
    assert "html" + ";" + "htm" == "html;htm";
    TwoTypesMerged(info, "html", "htm");
  }

  // ---------------------------------------------------------------- the command line

  /** `args[2].toUpperCase()` against "VS" and "OK". */
  function SelectRanking(arg: string): (m: Option<RankingModel>)
    ensures m == Some(VectorSpace) <==> Upper(arg) == "VS"
    ensures m == Some(Okapi) <==> Upper(arg) == "OK"
  {
    var key := Upper(arg);
    if key == "VS" then Some(VectorSpace)
    else if key == "OK" then Some(Okapi)
    else None
  }

  /** The model is chosen regardless of case: "vs", "Vs", "vS" and "VS" all select the vector space model. */
  lemma RankingIgnoresCase(arg: string)
    requires |arg| == 2 && LowerChar(arg[0]) == 'v' && LowerChar(arg[1]) == 's'
    ensures SelectRanking(arg) == Some(VectorSpace)
  {
    assert Upper(arg) == "VS";
  }

  /**
   * The configuration both variants build once the positions are known:
   * the built-in settings if they load, then the user's file if one is named.
   */
  function Configure(verbose: bool, docs: string, index: string, rankingArg: string, query: string,
                     settingsPath: Option<string>, isDirectory: string -> bool,
                     internal: Option<SettingsDoc>, readSettings: string -> Option<SettingsDoc>): (r: ArgsOutcome)
    ensures r.Exit? ==> r.reason in {NotADirectory(docs), WrongRanking(rankingArg)} + (if settingsPath.Some? then {SettingsUnreadable(settingsPath.value)} else {})
    ensures r == Exit(NotADirectory(docs)) <==> !isDirectory(docs)
    ensures r == Exit(WrongRanking(rankingArg)) <==> isDirectory(docs) && SelectRanking(rankingArg).None?
    ensures r.Configured? <==> isDirectory(docs) && SelectRanking(rankingArg).Some?
                                && (settingsPath.Some? ==> readSettings(settingsPath.value).Some?)
    ensures r.Configured? ==>
              && r.info.verbose == verbose && r.info.documentDirectory == docs && r.info.indexDirectory == index
              && Some(r.info.ranking) == SelectRanking(rankingArg) && r.info.query == query
    ensures r.Configured? ==>
              r.info.fileTypes == SettingsTypes(internal) + SettingsTypes(if settingsPath.Some? then readSettings(settingsPath.value) else None)
  {
    if !isDirectory(docs) then Exit(NotADirectory(docs))
    else match SelectRanking(rankingArg)
      case None => Exit(WrongRanking(rankingArg))
      case Some(ranking) =>
        var base := Information(verbose, docs, index, ranking, query, 0, {});
        var loaded := match internal case Some(doc) => LoadSettings(base, doc) case None => base;
        match settingsPath
        case None => Configured(loaded)
        case Some(path) =>
          match readSettings(path)
          case None => Exit(SettingsUnreadable(path))
          case Some(doc) => Configured(LoadSettings(loaded, doc))
  }

  /**
   * User settings are layered over the built-in ones: the extensions are the
   * union of both, and the user's count wins whenever it parses.
   */
  lemma UserSettingsLayered(docs: string, index: string, rankingArg: string, query: string, path: string,
                            isDirectory: string -> bool, builtIn: SettingsDoc, user: SettingsDoc,
                            readSettings: string -> Option<SettingsDoc>)
    requires readSettings(path) == Some(user)
    requires Configure(false, docs, index, rankingArg, query, Some(path), isDirectory, Some(builtIn), readSettings).Configured?
    ensures var info := Configure(false, docs, index, rankingArg, query, Some(path), isDirectory, Some(builtIn), readSettings).info;
            && info.fileTypes == TypesIn(GetText(builtIn.fileTypes)) + TypesIn(GetText(user.fileTypes))
            && (ParseInt(GetText(user.numberResults), 10).Some? ==> info.resultCount == ParseInt(GetText(user.numberResults), 10).value)
            && (ParseInt(GetText(user.numberResults), 10).None? ==> info.resultCount == ParseInt(GetText(builtIn.numberResults), 10).GetOr(0))
  {
  }

  /**
   * `ApplyArgs` as written: the flags are looked for in the whole list and
   * one "-v" is dropped for the arity check, but the positions are then read
   * from the original array, and a settings file is read iff that array has
   * five elements.
   */
  function ApplyArgsAsWritten(args: seq<string>, isDirectory: string -> bool,
                              internal: Option<SettingsDoc>, readSettings: string -> Option<SettingsDoc>): (r: ArgsOutcome)
    ensures r == Exit(HelpRequested) <==> "-h" in args
    ensures r == Exit(WrongUsage) <==> "-h" !in args && !(4 <= |RemoveFirst(args, "-v")| <= 5)
    ensures r.Configured? ==>
              && 4 <= |args| && isDirectory(args[0])
              && r.info.verbose == ("-v" in args)
              && r.info.documentDirectory == args[0] && r.info.indexDirectory == args[1]
              && Some(r.info.ranking) == SelectRanking(args[2]) && r.info.query == args[3]
              && r.info.fileTypes == SettingsTypes(internal) + SettingsTypes(if |args| == 5 then readSettings(args[4]) else None)
    // the settings file is args[4], read exactly when the array itself has five elements
    ensures "-h" !in args && 4 <= |RemoveFirst(args, "-v")| <= 5 && isDirectory(args[0]) && SelectRanking(args[2]).Some? ==>
              (r.Configured? <==> |args| != 5 || readSettings(args[4]).Some?)
              && (r.Exit? ==> r == Exit(SettingsUnreadable(args[4])))
  {
    if "-h" in args then Exit(HelpRequested)
    else
      var rest := RemoveFirst(args, "-v");
      if |rest| < 4 || |rest| > 5 then Exit(WrongUsage)
      else
        Configure("-v" in args, args[0], args[1], args[2], args[3],
                  if |args| == 5 then Some(args[4]) else None, isDirectory, internal, readSettings)
  }

  /**
   * `ApplyArgs` as intended: after "-h" and one "-v" are handled, the
   * remaining arguments are the positional ones, the fifth of them naming
   * the settings file.
   */
  function ApplyArgs(args: seq<string>, isDirectory: string -> bool,
                     internal: Option<SettingsDoc>, readSettings: string -> Option<SettingsDoc>): (r: ArgsOutcome)
    ensures r == Exit(HelpRequested) <==> "-h" in args
    ensures r == Exit(WrongUsage) <==> "-h" !in args && !(4 <= |RemoveFirst(args, "-v")| <= 5)
    ensures r.Configured? ==>
              var rest := RemoveFirst(args, "-v");
              && 4 <= |rest| <= 5 && isDirectory(rest[0])
              && r.info.verbose == ("-v" in args)
              && r.info.documentDirectory == rest[0] && r.info.indexDirectory == rest[1]
              && Some(r.info.ranking) == SelectRanking(rest[2]) && r.info.query == rest[3]
              && (|rest| == 5 ==> readSettings(rest[4]).Some?)
              && r.info.fileTypes == SettingsTypes(internal) + SettingsTypes(if |rest| == 5 then readSettings(rest[4]) else None)
    // the settings file is the fifth remaining argument, read exactly when there are five
    ensures var rest := RemoveFirst(args, "-v");
            "-h" !in args && 4 <= |rest| <= 5 && isDirectory(rest[0]) && SelectRanking(rest[2]).Some? ==>
              (r.Configured? <==> |rest| != 5 || readSettings(rest[4]).Some?)
              && (r.Exit? ==> r == Exit(SettingsUnreadable(rest[4])))
  {
    if "-h" in args then Exit(HelpRequested)
    else
      var rest := RemoveFirst(args, "-v");
      if |rest| < 4 || |rest| > 5 then Exit(WrongUsage)
      else
        Configure("-v" in args, rest[0], rest[1], rest[2], rest[3],
                  if |rest| == 5 then Some(rest[4]) else None, isDirectory, internal, readSettings)
  }

  /** Without a "-v" the two variants agree. */
  lemma AsWrittenAgreesWithoutVerbose(args: seq<string>, isDirectory: string -> bool,
                                      internal: Option<SettingsDoc>, readSettings: string -> Option<SettingsDoc>)
    requires "-v" !in args
    ensures ApplyArgsAsWritten(args, isDirectory, internal, readSettings) == ApplyArgs(args, isDirectory, internal, readSettings)
  {
  }

  /**
   * As written, a trailing "-v" after four positional arguments makes the
   * array five long, so "-v" itself is opened as the settings file and the
   * process exits with -1 (for example `docs index VS query -v`); the
   * intended reading configures the run verbosely.
   */
  lemma AsWrittenReadsVerboseFlagAsSettings(positional: seq<string>, isDirectory: string -> bool,
                                            internal: Option<SettingsDoc>, readSettings: string -> Option<SettingsDoc>)
    requires |positional| == 4 && "-v" !in positional && "-h" !in positional
    requires isDirectory(positional[0]) && SelectRanking(positional[2]).Some? && readSettings("-v").None?
    ensures ApplyArgsAsWritten(positional + ["-v"], isDirectory, internal, readSettings) == Exit(SettingsUnreadable("-v"))
    ensures ApplyArgs(positional + ["-v"], isDirectory, internal, readSettings).Configured?
  {
    var args := positional + ["-v"];
    assert args == positional[..4] + ["-v"] + positional[4..];
    InInserted(positional, 4, "-v", "-h");
    InInserted(positional, 4, "-v", "-v");
    RemoveInserted(positional, 4, "-v");
    assert args[..4] == positional && args[4] == "-v";
    assert ApplyArgsAsWritten(args, isDirectory, internal, readSettings)
           == Configure(true, args[0], args[1], args[2], args[3], Some(args[4]), isDirectory, internal, readSettings);
    assert ApplyArgs(args, isDirectory, internal, readSettings)
           == Configure(true, positional[0], positional[1], positional[2], positional[3], None, isDirectory, internal, readSettings);
  }

  /**
   * As written, a leading "-v" shifts every position: "-v" is taken for the
   * document directory, and with a settings file named the array is six
   * long, so the file is never read.
   */
  lemma AsWrittenMisplacesLeadingVerbose(positional: seq<string>, isDirectory: string -> bool,
                                         internal: Option<SettingsDoc>, readSettings: string -> Option<SettingsDoc>)
    requires 4 <= |positional| <= 5 && "-v" !in positional && "-h" !in positional
    ensures var r := ApplyArgsAsWritten(["-v"] + positional, isDirectory, internal, readSettings);
            && (!isDirectory("-v") ==> r == Exit(NotADirectory("-v")))
            && (r.Configured? ==> r.info.documentDirectory == "-v" && r.info.query == positional[2])
            && (|positional| == 5 ==> r != Exit(SettingsUnreadable(positional[4])))
  {
    var args := ["-v"] + positional;
    assert args == positional[..0] + ["-v"] + positional[0..];
    InInserted(positional, 0, "-v", "-h");
    InInserted(positional, 0, "-v", "-v");
    RemoveInserted(positional, 0, "-v");
    assert args[0] == "-v" && args[1..] == positional;
    if |positional| == 4 {
      assert ApplyArgsAsWritten(args, isDirectory, internal, readSettings)
             == Configure(true, args[0], args[1], args[2], args[3], Some(args[4]), isDirectory, internal, readSettings);
    } else {
      assert ApplyArgsAsWritten(args, isDirectory, internal, readSettings)
             == Configure(true, args[0], args[1], args[2], args[3], None, isDirectory, internal, readSettings);
    }
  }

  /**
   * In the intended reading "-v" may stand anywhere: inserting it into an
   * argument list that lacks it changes only the verbose flag.
   */
  lemma VerboseFlagAnywhere(args: seq<string>, k: nat, isDirectory: string -> bool,
                            internal: Option<SettingsDoc>, readSettings: string -> Option<SettingsDoc>)
    requires "-v" !in args && k <= |args|
    ensures var with := ApplyArgs(args[..k] + ["-v"] + args[k..], isDirectory, internal, readSettings);
            var without := ApplyArgs(args, isDirectory, internal, readSettings);
            && (with.Exit? <==> without.Exit?)
            && (with.Exit? ==> with == without)
            && (with.Configured? ==> with.info == without.info.(verbose := true) && !without.info.verbose)
  {
    RemoveInserted(args, k, "-v");
    InInserted(args, k, "-v", "-h");
    InInserted(args, k, "-v", "-v");
  }
}

=== FILE: Numerals.dfy ===
/**
 * Java's integer <-> text conversions that the core relies on:
 * `Integer.toString(i, radix)` (the unpadded rendering of digest bytes and of
 * the finish count) and `Integer.parseInt` (the `number_results` setting).
 * Digits are the ASCII ones; Java also accepts other Unicode decimal digits
 * when parsing, which this model leaves out.
 */
module Numerals {
  import opened Wrappers

  /** Java's `byte` holds its value as an unsigned 8-bit pattern here. */
  type Byte = b: int | 0 <= b < 256

  const Int32Min: int := -0x8000_0000
  const Int32Max: int := 0x7FFF_FFFF

  predicate InInt32(i: int) {
    Int32Min <= i <= Int32Max
  }

  /** The value Java sees when it reads the bit pattern `b` as a signed `byte`. */
  function SignedByte(b: Byte): (v: int)
    ensures -128 <= v < 128
    ensures v % 256 == b
  {
    if b < 128 then b else b - 256
  }

  /** Radixes the model renders and parses. */
  predicate Radix(base: nat) {
    base == 10 || base == 16
  }

  /** Most significant digit first, without leading zeros; `[0]` for zero. */
  function ToDigits(n: nat, base: nat): (ds: seq<nat>)
    requires Radix(base)
    ensures 1 <= |ds|
    ensures forall i :: 0 <= i < |ds| ==> ds[i] < base
    ensures |ds| > 1 ==> ds[0] != 0
    decreases n
  {
    if n < base then [n] else ToDigits(n / base, base) + [n % base]
  }

  /** The value of a digit sequence, most significant digit first. */
  function FromDigits(ds: seq<nat>, base: nat): nat
    decreases |ds|
  {
    if |ds| == 0 then 0 else FromDigits(ds[..|ds| - 1], base) * base + ds[|ds| - 1]
  }

  /** `FromDigits` undoes `ToDigits`. */
  lemma {:induction false} FromToDigits(n: nat, base: nat)
    requires Radix(base)
    ensures FromDigits(ToDigits(n, base), base) == n
    decreases n
  {
    if n >= base {
      var ds := ToDigits(n, base);
      assert ds[..|ds| - 1] == ToDigits(n / base, base);
      FromToDigits(n / base, base);
    }
  }

  /** A digit as Java prints it: `0`-`9`, then lower-case `a`-`f`. */
  function DigitChar(d: nat): char
    requires d < 16
  {
    "0123456789abcdef"[d]
  }

  /** `Character.digit(c, base)` restricted to ASCII digits and letters. */
  function CharDigit(c: char, base: nat): (r: Option<nat>)
    requires Radix(base)
    ensures r.Some? ==> r.value < base
  {
    var d :=
      if '0' <= c <= '9' then c as int - '0' as int
      else if 'a' <= c <= 'z' then c as int - 'a' as int + 10
      else if 'A' <= c <= 'Z' then c as int - 'A' as int + 10
      else base;
    if d < base then Some(d) else None
  }

  lemma CharDigitOfDigitChar(d: nat, base: nat)
    requires Radix(base) && d < base
    ensures CharDigit(DigitChar(d), base) == Some(d)
  {
  }

  /** `Integer.toString(n, base)` for a non-negative `n`. */
  function NatToString(n: nat, base: nat): (s: string)
    requires Radix(base)
    ensures |s| == |ToDigits(n, base)|
  {
    var ds := ToDigits(n, base);
    seq(|ds|, i requires 0 <= i < |ds| => DigitChar(ds[i]))
  }

  /** `Integer.toString(i, base)`: a minus sign before the digits of `-i` when `i` is negative. */
  function IntToString(i: int, base: nat): (s: string)
    requires Radix(base)
    ensures 1 <= |s|
    ensures (s[0] == '-') == (i < 0)
  {
    if i < 0 then "-" + NatToString(-i, base) else NatToString(i, base)
  }

  /** The digits of `s` if every character of it is one; `None` otherwise. */
  function DigitsOf(s: string, base: nat): (r: Option<seq<nat>>)
    requires Radix(base)
    ensures r.Some? ==> |r.value| == |s| && forall i :: 0 <= i < |s| ==> CharDigit(s[i], base) == Some(r.value[i])
    ensures r.None? ==> exists i :: 0 <= i < |s| && CharDigit(s[i], base).None?
    decreases |s|
  {
    if |s| == 0 then Some([])
    else match (CharDigit(s[0], base), DigitsOf(s[1..], base))
      case (Some(d), Some(ds)) => Some([d] + ds)
      case (None, _) => None
      case (_, None) =>
        var i :| 1 <= i + 1 < |s| + 1 && 0 <= i < |s[1..]| && CharDigit(s[1..][i], base).None?;
        assert CharDigit(s[i + 1], base).None?;
        None
  }

  /** The value of a non-empty run of digits; `None` when it is empty or holds a non-digit. */
  function Magnitude(body: string, base: nat): (r: Option<nat>)
    requires Radix(base)
    ensures r.Some? <==> |body| > 0 && forall i :: 0 <= i < |body| ==> CharDigit(body[i], base).Some?
  {
    if |body| == 0 then None
    else match DigitsOf(body, base)
      case None => None
      case Some(ds) => Some(FromDigits(ds, base))
  }

  /**
   * `Integer.parseInt(s, base)`: an optional `+` or `-`, then at least one
   * digit, and a value that fits in a Java `int`; `None` where Java throws
   * `NumberFormatException`.
   */
  function ParseInt(s: string, base: nat): (r: Option<int>)
    requires Radix(base)
    ensures r.Some? ==> InInt32(r.value)
    ensures |s| == 0 ==> r.None?
    // a lone sign, or any non-digit other than a leading sign, is rejected
    ensures r.Some? ==> exists i :: 0 <= i < |s| && CharDigit(s[i], base).Some?
    ensures r.Some? ==> forall i :: 0 < i < |s| ==> CharDigit(s[i], base).Some?
    ensures r.Some? && s[0] != '-' && s[0] != '+' ==> CharDigit(s[0], base).Some?
    ensures r.Some? ==> (r.value < 0 ==> s[0] == '-')
  {
    if |s| == 0 then None
    else
      var signed := s[0] == '-' || s[0] == '+';
      match Magnitude(if signed then s[1..] else s, base)
      case None => None
      case Some(magnitude) =>
        var v: int := if s[0] == '-' then -(magnitude as int) else magnitude;
        if InInt32(v) then Some(v) else None
  }

  lemma DigitsOfNatToString(n: nat, base: nat)
    requires Radix(base)
    ensures DigitsOf(NatToString(n, base), base) == Some(ToDigits(n, base))
  {
    var s := NatToString(n, base);
    var ds := ToDigits(n, base);
    var r := DigitsOf(s, base);
    forall i | 0 <= i < |s|
      ensures CharDigit(s[i], base) == Some(ds[i])
    {
      CharDigitOfDigitChar(ds[i], base);
    }
    assert r.value == ds;
  }

  /** Text with no sign parses as the value of its digits, when it fits. */
  lemma ParseUnsigned(t: string, base: nat, m: nat)
    requires Radix(base) && |t| > 0 && t[0] != '-' && t[0] != '+'
    requires Magnitude(t, base) == Some(m) && InInt32(m)
    ensures ParseInt(t, base) == Some(m)
  {
  }

  /** Text starting with '-' parses as the negated value of the digits after it, when that fits. */
  lemma ParseNegative(t: string, base: nat, m: nat)
    requires Radix(base) && |t| > 0 && t[0] == '-'
    requires Magnitude(t[1..], base) == Some(m) && InInt32(-(m as int))
    ensures ParseInt(t, base) == Some(-(m as int))
  {
  }

  /** Text starting with '+' parses as the value of the digits after it, when that fits. */
  lemma ParsePlus(t: string, base: nat, m: nat)
    requires Radix(base) && |t| > 0 && t[0] == '+'
    requires Magnitude(t[1..], base) == Some(m) && InInt32(m)
    ensures ParseInt(t, base) == Some(m)
  {
  }

  /** Well-formed text whose signed value does not fit in a Java `int` is rejected. */
  lemma ParseRejectsOutOfRange(t: string, base: nat, m: nat)
    requires Radix(base) && |t| > 0
    requires Magnitude(if t[0] == '-' || t[0] == '+' then t[1..] else t, base) == Some(m)
    requires !InInt32(if t[0] == '-' then -(m as int) else m)
    ensures ParseInt(t, base).None?
  {
  }

  /** Parsing a rendered Java `int` gives the same `int` back. */
  lemma ParseIntToString(i: int, base: nat)
    requires Radix(base) && InInt32(i)
    ensures ParseInt(IntToString(i, base), base) == Some(i)
  {
    var m: nat := if i < 0 then -i else i;
    var t := IntToString(i, base);
    var digits := NatToString(m, base);
    var ds := ToDigits(m, base);
    DigitsOfNatToString(m, base);
    FromToDigits(m, base);
    assert Magnitude(digits, base) == Some(m);
    if i < 0 {
      assert t[1..] == digits;
      ParseNegative(t, base, m);
    } else {
      assert t[0] == DigitChar(ds[0]);
      ParseUnsigned(t, base, m);
    }
  }
}

=== FILE: Text.dfy ===
/**
 * The string operations the indexer and the settings reader use:
 * `String.toLowerCase`, `String.toUpperCase`, `String.endsWith` and
 * `String.split` on a single character. Case mapping is modelled on ASCII
 * letters only; every other character maps to itself.
 */
module Text {

  predicate IsUpper(c: char) {
    'A' <= c <= 'Z'
  }

  predicate IsLower(c: char) {
    'a' <= c <= 'z'
  }

  function LowerChar(c: char): char {
    if IsUpper(c) then (c as int - 'A' as int + 'a' as int) as char else c
  }

  function UpperChar(c: char): char {
    if IsLower(c) then (c as int - 'a' as int + 'A' as int) as char else c
  }

  /** True iff `s` holds no ASCII upper-case letter. */
  predicate NoUpper(s: string) {
    forall i :: 0 <= i < |s| ==> !IsUpper(s[i])
  }

  /** `String.toLowerCase` on ASCII letters. */
  function Lower(s: string): (r: string)
    ensures |r| == |s|
    ensures NoUpper(r)
    ensures forall i :: 0 <= i < |s| && !IsUpper(s[i]) ==> r[i] == s[i]
    ensures forall i :: 0 <= i < |s| && IsUpper(s[i]) ==> IsLower(r[i]) && r[i] as int == s[i] as int + 32
  {
    seq(|s|, i requires 0 <= i < |s| => LowerChar(s[i]))
  }

  /** `String.toUpperCase` on ASCII letters. */
  function Upper(s: string): (r: string)
    ensures |r| == |s|
    ensures forall i :: 0 <= i < |s| ==> !IsLower(r[i])
    ensures forall i :: 0 <= i < |s| && !IsLower(s[i]) ==> r[i] == s[i]
    ensures forall i :: 0 <= i < |s| && IsLower(s[i]) ==> IsUpper(r[i]) && r[i] as int == s[i] as int - 32
  {
    seq(|s|, i requires 0 <= i < |s| => UpperChar(s[i]))
  }

  /** A string without upper-case letters is its own lower-case form. */
  lemma LowerOfNoUpper(s: string)
    requires NoUpper(s)
    ensures Lower(s) == s
  {
  }

  /** `String.endsWith`. */
  predicate EndsWith(s: string, suffix: string) {
    |suffix| <= |s| && s[|s| - |suffix|..] == suffix
  }

  /**
   * A string without upper-case letters never ends with a suffix that has one:
   * the suffix would be one of its own pieces.
   */
  lemma NoUpperNeverEndsWithUpper(s: string, suffix: string, k: nat)
    requires NoUpper(s)
    requires k < |suffix| && IsUpper(suffix[k])
    ensures !EndsWith(s, suffix)
  {
  }

  /**
   * The pieces of `s` between occurrences of `sep`, every one kept, empty
   * ones included. `JavaSplit` is what `String.split` returns from them.
   */
  function Split(s: string, sep: char): (r: seq<string>)
    ensures |r| >= 1
    ensures forall i :: 0 <= i < |r| ==> sep !in r[i]
    ensures Join(r, sep) == s
    decreases |s|
  {
    if sep !in s then [s]
    else
      var k := IndexOf(s, sep);
      [s[..k]] + Split(s[k + 1..], sep)
  }

  /** The inverse of `Split`: the pieces with `sep` between neighbours. */
  function Join(pieces: seq<string>, sep: char): string
    decreases |pieces|
  {
    if |pieces| == 0 then ""
    else if |pieces| == 1 then pieces[0]
    else pieces[0] + [sep] + Join(pieces[1..], sep)
  }

  /** The pieces with every empty piece at the end removed. */
  function DropTrailingEmpty(pieces: seq<string>): (r: seq<string>)
    ensures r <= pieces
    ensures forall i :: |r| <= i < |pieces| ==> pieces[i] == ""
    ensures |r| == 0 || r[|r| - 1] != ""
    decreases |pieces|
  {
    if |pieces| == 0 || pieces[|pieces| - 1] != "" then pieces
    else DropTrailingEmpty(pieces[..|pieces| - 1])
  }

  /**
   * `String.split` on the single character `sep` with no limit: the text
   * itself when `sep` does not occur, otherwise the pieces without the
   * empty ones at the end ("html;" gives ["html"], ";" gives none).
   */
  function JavaSplit(s: string, sep: char): (r: seq<string>)
    ensures sep !in s ==> r == [s]
    ensures sep in s ==> && r <= Split(s, sep)
                         && (forall i :: |r| <= i < |Split(s, sep)| ==> Split(s, sep)[i] == "")
                         && (|r| == 0 || r[|r| - 1] != "")
    ensures forall p :: p != "" ==> (p in r <==> p in Split(s, sep))
  {
    if sep !in s then [s] else DropTrailingEmpty(Split(s, sep))
  }

  /** Position of the first `c` in `s`. */
  function IndexOf<T(==)>(s: seq<T>, c: T): (k: nat)
    requires c in s
    ensures k < |s| && s[k] == c && c !in s[..k]
  {
    if s[0] == c then 0 else 1 + IndexOf(s[1..], c)
  }

  /** Splitting the join of separator-free pieces gives the pieces back. */
  lemma {:induction false} SplitJoin(pieces: seq<string>, sep: char)
    requires |pieces| >= 1
    requires forall i :: 0 <= i < |pieces| ==> sep !in pieces[i]
    ensures Split(Join(pieces, sep), sep) == pieces
    decreases |pieces|
  {
    if |pieces| == 1 {
    } else {
      var rest := Join(pieces[1..], sep);
      var s := pieces[0] + [sep] + rest;
      assert s[|pieces[0]|] == sep;
      assert s[..|pieces[0]|] == pieces[0];
      assert sep in s;
      var k := IndexOf(s, sep);
      assert k == |pieces[0]|;
      assert s[k + 1..] == rest;
      SplitJoin(pieces[1..], sep);
    }
  }

  /** Java's split of the join of non-empty, separator-free pieces gives the pieces back. */
  lemma JavaSplitJoin(pieces: seq<string>, sep: char)
    requires |pieces| >= 1
    requires forall i :: 0 <= i < |pieces| ==> pieces[i] != "" && sep !in pieces[i]
    ensures JavaSplit(Join(pieces, sep), sep) == pieces
  {
    SplitJoin(pieces, sep);
  }

  /** `ArrayList.remove(Object)`: drop the first occurrence of `l`, if any, keeping the rest in order. */
  function RemoveFirst<T(==)>(ls: seq<T>, l: T): (r: seq<T>)
    ensures l !in ls ==> r == ls
    ensures l in ls ==> |r| == |ls| - 1 && multiset(r) + multiset{l} == multiset(ls)
    ensures l in ls ==> ls == r[..IndexOf(ls, l)] + [l] + r[IndexOf(ls, l)..]
  {
    if l in ls then
      var k := IndexOf(ls, l);
      assert ls == ls[..k] + [l] + ls[k + 1..];
      ls[..k] + ls[k + 1..]
    else ls
  }

  /** Removing an element that was inserted into a sequence not holding it gives the sequence back, wherever it went. */
  lemma RemoveInserted<T>(s: seq<T>, k: nat, x: T)
    requires x !in s && k <= |s|
    ensures RemoveFirst(s[..k] + [x] + s[k..], x) == s
  {
    var t := s[..k] + [x] + s[k..];
    assert t[k] == x;
    assert IndexOf(t, x) == k by {
      assert forall i :: 0 <= i < k ==> t[i] == s[i];
    }
    assert t[..k] == s[..k] && t[k + 1..] == s[k..];
  }

  /** An element is in a sequence with `x` inserted iff it is `x` or was already there. */
  lemma InInserted<T>(s: seq<T>, k: nat, x: T, y: T)
    requires k <= |s|
    ensures y in s[..k] + [x] + s[k..] <==> y == x || y in s
  {
    assert s == s[..k] + s[k..];
  }
}

=== FILE: Wrappers.dfy ===
/** Option and Result, used for the program's null returns and exceptions. */
module Wrappers {

  datatype Option<+T> = None | Some(value: T) {
    /** The value held, or `default` when there is none. */
    function GetOr(default: T): T {
      match this
      case Some(v) => v
      case None => default
    }
  }

  datatype Result<+R, +E> = Success(value: R) | Failure(error: E)
}
